=== FILE: README.md ===
# Networking mini-app: contact store and QR profile exchange

This project models the networking mini-app of a conference website in Dafny. An attendee
fills in a profile form. The app shows the profile as a QR code that holds the profile's JSON
text. Other attendees scan that code, and the app keeps the scanned people as a contact list.
Both the profile and the list live in the browser's local storage.

The model covers:

- **Profile store** (`ContactStore`): the "my profile" slot and the contact list. This covers
  `getMyProfile`, `saveMyProfile`, `deleteMyProfile`, `getContacts`, `saveContact`,
  `deleteContact` and `updateContact`. Each storage key is a `Slot`: never written, holding
  unreadable text, or holding a value. A failing storage write is the `writeFails` argument.
- **Queries** (`Queries`): `getNetworkingStats`, `searchContacts` and `sortContacts`.
  - Timestamps stay ISO-8601 text in the record.
  - `timeOf` stands for `new Date(t).getTime()`, and `now` is the clock in milliseconds.
- **Exchange codec** (`Exchange`):
  - The share side is `JSON.stringify(profile)`.
  - The scan side is `validateProfileData`, followed by the scan page stamping `scannedAt`.
  - A payload is what `JSON.parse` returns: either not an object, or a map from key to string
    or `null`.
- **vCard export** (`VCard`): `exportContactAsVCard`, which uses the vCard 3.0 properties of
  RFC 2426 (FN in section 3.1.1, TEL 3.3.1, EMAIL 3.3.2, TITLE 3.5.1, ORG 3.5.5).
- **Id generation** (`Uuid`): `generateId`, which fills the version-4 UUID template of
  section 4.4 of RFC 4122. The 31 random draws are passed in as an argument.
- **Profile form** (`ProfileForm`): the zod schema of the create/edit page and the
  edit-in-place rule the submit handler uses to build "my profile".

Helper modules: `Wrappers` (Option, Result), `Text` (the JavaScript white-space class, trim,
ASCII lower-casing, `includes`, a lexicographic order, UTF-16 length, line splitting) and `Seqs`
(filter, count, set of mapped values). `Scenarios` holds worked example runs over small,
concrete contact lists and forms.

Three behaviours of the code worth knowing:

- `updateContact` and `deleteContact` report every failure as the same `false`. An unknown id
  in `updateContact` throws inside the function and is caught there.
- `saveContact` returns `true` on success and never `false`. It throws on a duplicate email
  and rethrows a storage fault. The model's `Success(store)` stands for that `true`.
- The vCard template has eight lines, separated by seven line feeds.

## Model

| member | source | states |
|---|---|---|
| ContactStore.GetMyProfile | src/lib/networking.ts:26-35 | yields the stored profile when the slot holds one, and nothing when the key is missing or its text is unreadable |
| ContactStore.SaveMyProfile | src/lib/networking.ts:40-48 | returns true exactly when the write succeeds; afterwards my profile reads back as the saved one; a failed write changes nothing; the contacts are never touched |
| ContactStore.DeleteMyProfile | src/lib/networking.ts:53-61 | returns true exactly when the write succeeds; afterwards no profile is read back; a failed write changes nothing |
| ContactStore.GetContacts | src/lib/networking.ts:66-75 | yields the stored list, and the empty list when the key is missing or unreadable |
| ContactStore.SaveContact | src/lib/networking.ts:80-97 | fails with DuplicateContact exactly when a stored contact has the same email ignoring case; fails with StorageFault exactly when the email is free but the write fails; otherwise the list becomes the old list with the contact appended and my profile is untouched |
| ContactStore.SaveThenGetOnce | src/lib/networking.ts:80-97 | after a successful save the saved contact occurs exactly once in the list |
| ContactStore.SaveKeepsEmailsUnique | src/lib/networking.ts:84-91 | saving preserves the invariant that no two contacts share an email ignoring case |
| ContactStore.DeleteContact | src/lib/networking.ts:102-112 | returns true unless the write fails; the new list keeps exactly the old entries whose id differs, as an order-preserving filter; a failed write changes nothing |
| ContactStore.DeleteAbsentId | src/lib/networking.ts:102-107 | deleting an id no contact has reports success and leaves the list identical |
| ContactStore.DeleteIdempotent | src/lib/networking.ts:105 | deleting the same id twice leaves the same list as deleting it once |
| ContactStore.DeleteKeepsEmailsUnique | src/lib/networking.ts:105-106 | deleting preserves email uniqueness |
| ContactStore.FindIndex | src/lib/networking.ts:120 | finds the first index holding the id, or reports that no entry holds it |
| ContactStore.UpdateContact | src/lib/networking.ts:117-133 | returns true exactly when some contact has the id and the write succeeds; on false nothing changes; on true the length is kept and only the first entry with the id is replaced, by the shallow merge of the patch into it |
| ContactStore.UpdateKeepsEmailsUnique | src/lib/networking.ts:126 | an update whose patch carries no email preserves email uniqueness |
| ContactStore.UpdateCanDuplicateEmail | src/lib/networking.ts:117-128 | there is a store with unique emails where an update succeeds and leaves two contacts with the same email, because the update does not re-check the rule saveContact enforces |
| ContactStore.DeleteAllUpdateFirst | src/lib/networking.ts:102-126 | with two entries sharing an id, delete removes both, while update merges the patch into the first and leaves the later one unchanged |
| Profiles.Merge | src/lib/networking.ts:126 | the merged record equals the old one exactly when every key the patch supplies already holds that value, and it always agrees with the patch on the keys the patch supplies |
| Profiles.MergeFields | src/lib/networking.ts:126 | the merged record takes every key the patch supplies and keeps the old value of every other key |
| Profiles.MergeEmpty | src/lib/networking.ts:126 | merging an empty patch gives back the same record |
| Profiles.MergeIdempotent | src/lib/networking.ts:126 | merging the same patch twice equals merging it once |
| Profiles.RecencyStamp | src/lib/networking.ts:233-234 | the date a contact sorts by is its scan stamp when present and non-empty, and its creation time otherwise |
| Queries.Stats | src/lib/networking.ts:138-155 | totalContacts is the list length; recentScans is the number of contacts with a non-empty scannedAt no older than now minus seven days, bound included, and is at most the total; companiesRepresented is the number of distinct lower-cased company names, at most the total and at least one for a non-empty list |
| Queries.StatsAfterSave | src/lib/networking.ts:138-155 | a successful save raises the total by one, raises recentScans by one exactly when the new contact is recent, and raises companiesRepresented by one exactly when no stored contact has its company ignoring case |
| Queries.Search | src/lib/networking.ts:206-218 | a blank query returns the whole list; otherwise every contact whose lower-cased name, company, role or email contains the lower-cased, untrimmed query appears as many times as it is stored, and no other contact appears; the result is always an order-preserving sub-list of the stored list |
| Queries.SearchAfterSave | src/lib/networking.ts:206-218 | after a successful save, any search returns what it returned before, followed by the new contact when the query is blank or the contact matches it |
| Queries.SearchIgnoresQueryCase | src/lib/networking.ts:207-210 | searching for a query and for its lower-cased form give the same result |
| Queries.InOrderTotal | src/lib/networking.ts:227-236 | any two contacts are comparable in each of the three sort orders |
| Queries.InOrderTransitive | src/lib/networking.ts:227-236 | each of the three sort orders is transitive |
| Queries.Insert | src/lib/networking.ts:224-236 | inserting into a sorted list gives a sorted list holding the old elements plus the new one |
| Queries.SortedByNameUnique | src/lib/networking.ts:227-228 | when contacts sharing a name are the same record, any two name-sorted arrangements of the same contacts are the same list |
| Queries.SortByNameDetermined | src/lib/networking.ts:223-228 | under the same condition, sorting by name returns the one name-sorted arrangement of the input, whatever order the sort visits it in |
| Queries.Sort | src/lib/networking.ts:223-240 | the result is a permutation of the input; by name or company it is non-decreasing in that field; by date it is non-increasing in scannedAt-or-createdAt |
| Text.TrimEmptyIffBlank | src/lib/networking.ts:207 | a query trims to the empty string exactly when every character is white space |
| Exchange.Message | src/lib/networking.ts:161-176 | the three thrown messages: only a missing-field error starts with "Missing required field: ", and its message names the field after that prefix |
| Exchange.FirstMissing | src/lib/networking.ts:165-170 | names the first required key that is missing, null or empty, with every earlier key present; or reports that all are present |
| Exchange.EmailRegexIff | src/lib/networking.ts:173 | the email pattern holds exactly when the string has one @, no white space, a non-empty local part and a domain with a dot that is neither its first nor its last character |
| Exchange.Decode | src/lib/networking.ts:160-179 | rejects a non-object as invalid data; otherwise reports the first missing required key; fails on the email format exactly when all keys are present and the pattern fails; on success returns the payload's own values unchanged |
| Exchange.MissingEmailBeforeFormat | src/lib/networking.ts:165-176 | a payload with the first five keys present and no usable email fails with "Missing required field: email", not with the format error |
| Exchange.Encode | src/components/networking/QRCodeDisplay.tsx:25 | the shared payload is an object, and it carries a scannedAt key exactly when the profile has one |
| Exchange.EncodeHolds | src/components/networking/QRCodeDisplay.tsx:25 | the shared payload holds each of the profile's seven string fields under its own key, and its scannedAt entry is the profile's |
| Exchange.RoundTrip | src/lib/networking.ts:160-179 | validating the payload of a profile succeeds exactly when its seven required fields are non-empty and its email is well formed, and then it yields the same profile |
| Exchange.Scan | src/pages/networking/ScanProfile.tsx:29-40 | a scan fails exactly when validation fails, with the same error; otherwise it yields the validated profile with scannedAt set to the scan time |
| Exchange.ShareThenScan | src/pages/networking/ScanProfile.tsx:34-40 | scanning a shared valid profile gives back that profile stamped with the scan time, replacing any stamp it carried |
| VCard.ExportVCard | src/lib/networking.ts:192-201 | the card opens with BEGIN:VCARD, closes with END:VCARD, and is 61 template characters long plus the name, phone, email, company and role |
| VCard.ExportVCardLines | src/lib/networking.ts:192-201 | when no value contains a line feed, the card splits into exactly eight lines: BEGIN:VCARD, VERSION:3.0, FN, TEL, EMAIL, ORG, TITLE with the values verbatim, then END:VCARD |
| VCard.ExportThenParse | src/lib/networking.ts:192-201 | a card made from single-line values reads back to the name, phone, email, company and role it was made from |
| Uuid.FillTemplate | src/lib/networking.ts:16-20 | filling a template keeps its length, puts a lower-case hex digit at every x and one of 8, 9, a, b at every y, and copies every other character |
| Uuid.GenerateId | src/lib/networking.ts:15-21 | the id has 36 characters, hyphens at positions 8, 13, 18 and 23, a 4 at position 14 and one of 8, 9, a, b at position 19 |
| Uuid.EveryV4IdIsGenerated | src/lib/networking.ts:15-21 | every string that fills the template is the id of some sequence of 31 draws |
| ProfileForm.Message | src/pages/networking/CreateProfile.tsx:25-29 | the schema's messages: each too-long complaint about name, role or company ends in " is too long", and each too-short complaint about those three ends in " must be at least 2 characters" |
| ProfileForm.MessagesDistinct | src/pages/networking/CreateProfile.tsx:25-29 | no two of the nine complaints share a message, so the message shown identifies the complaint |
| ProfileForm.SchemaIssues | src/pages/networking/CreateProfile.tsx:24-30 | the schema raises at most six complaints, one per length field and two for the phone; it complains about the email exactly when the email check fails, and about the phone format exactly when the phone pattern fails |
| ProfileForm.ShortNameReportedFirst | src/pages/networking/CreateProfile.tsx:25 | a name shorter than two characters gives the first complaint, NameTooShort, whose message starts with "Name" and ends in " must be at least 2 characters" |
| ProfileForm.NameRule | src/pages/networking/CreateProfile.tsx:25 | the name draws no complaint exactly when its length is between 2 and 100 inclusive |
| ProfileForm.RoleAndCompanyRule | src/pages/networking/CreateProfile.tsx:26-27 | role and company each draw no complaint exactly when their length is between 2 and 100 inclusive |
| ProfileForm.PhoneRule | src/pages/networking/CreateProfile.tsx:28 | the phone draws no complaint exactly when it has at least ten characters, each a digit, white space, -, +, ( or ) |
| ProfileForm.AcceptedIff | src/pages/networking/CreateProfile.tsx:24-30 | the schema accepts the form exactly when all five fields pass their rules |
| ProfileForm.AssembleProfile | src/pages/networking/CreateProfile.tsx:58-62 | keeps a stored profile's non-empty id and createdAt, and otherwise uses a fresh v4 id and the current time; the five contact fields are the form's values; scannedAt is never set |
| ProfileForm.Submit | src/pages/networking/CreateProfile.tsx:54-71 | a rejected form changes nothing and lists the schema's complaints; an accepted form is saved as the assembled profile unless the write fails; contacts are never touched |
| ProfileForm.EditKeepsIdentity | src/pages/networking/CreateProfile.tsx:58-62 | once a profile has been assembled, assembling a new form against it keeps its id and creation time whatever the new draws and clock, and takes the new field values |
| Scenarios.SevenDayWindow | src/lib/networking.ts:140-146 | a scan six days old counts as recent and one eight days old does not |
| Scenarios.DateSortNewestFirst | src/lib/networking.ts:231-236 | contacts scanned at times T1 < T2 < T3 sort by date as [T3, T2, T1] |
| Scenarios.SearchAcme | src/lib/networking.ts:206-218 | searching "acme" over companies Acme, Beta and acme Corp returns the two Acme entries in stored order |
| Scenarios.CreateOnFreshDevice | src/pages/networking/CreateProfile.tsx:54-71 | on a device with nothing stored, submitting a valid example form saves the assembled profile as my profile, and that profile passes the scan-side validation |
| Scenarios.ScanAndSaveOnSecondDevice | src/pages/networking/ScanProfile.tsx:34-40 | scanning a shared valid profile on an empty device and saving it leaves exactly that profile, stamped with the scan time |

## Left out

- `exportContactsAsJSON`: it only formats the list as indented JSON text, and JSON text is not
  modelled.
- JSON text itself is not modelled. The slots hold decoded values, and the scan starts from
  what `JSON.parse` returned, so a parse error and its message are not modelled. Stored text
  that parses to the wrong shape, such as a number in the contacts key, is not modelled either.
- Exchange.Decode: only string and `null` values are modelled. The code would also accept a
  truthy number, boolean or object in a required key and return it uncast. Keys other than the
  eight Profile keys are dropped, although the code keeps them on the returned object.
- Queries.Stats: dates are integers from `timeOf`. The window is `now` minus seven times
  86 400 000 ms, not the calendar-day `setDate` step with its daylight-saving effects.
  Unparseable dates (NaN) are not modelled.
- Queries.Sort: `localeCompare` is replaced by lexicographic code-point order. Stability is
  built into the insertion but not stated as a property. NaN dates, which make the comparator
  inconsistent, are not modelled.
- Queries.Search: `toLowerCase` folds ASCII letters only, not full Unicode case mapping.
- Queries.Stats: companies are counted after the same ASCII-only lower-casing, while the code
  uses full Unicode `toLowerCase`, so two company names that differ only in a non-ASCII
  letter's case count as two companies here.
- Profiles.Merge: a patch key is either absent or holds a value. A key that is present with
  the value `undefined` is not modelled. In the spread it would overwrite the field with
  `undefined`, and `JSON.stringify` would then drop the key from the stored record.
- ContactStore.SaveContact: the email comparison folds ASCII letters only.
- ProfileForm.AcceptedIff: zod's `.email()` check is library code. It is the `emailOk`
  argument and is not modelled.
- ProfileForm.Submit: the stored profile is read at submit time. The page reads it again on
  every render, and the submit handler uses the value from the latest render, which is the
  same value in a single tab. zod lists every complaint; the
  page shows one per field, and that display is not modelled.
- Uuid.GenerateId: `Math.random` is replaced by the `draws` argument.
- Reads that throw are the same as an unreadable slot. Write faults are the `writeFails`
  argument.
- Page state, toasts, navigation, timers, camera scanning, QR image rendering, downloads, Web
  Share and clipboard use are user interface or browser services, and are not modelled.
- The static marketing pages, header, footer and routing contain no logic, and are not
  modelled.

=== FILE: exchange.dfy ===
/**
 * The QR exchange: `JSON.stringify(profile)` on the sharing side,
 * `validateProfileData` on the scanning side, and the scan page's stamping of
 * `scannedAt`. A payload is modelled by what `JSON.parse` yields: something
 * that is not an object, or an object whose keys map to a string or to JSON
 * `null` (`None`). A JSON array is an object without these keys and behaves
 * like `AnObject(map[])`.
 */
module Exchange {
  import opened Wrappers
  import opened Text
  import opened Profiles

  datatype Payload = NotAnObject | AnObject(fields: map<string, Option<string>>)

  /** The three errors `validateProfileData` throws. */
  datatype DecodeError = InvalidData | MissingField(field: string) | InvalidEmail

  const MissingFieldPrefix: string := "Missing required field: "

  /**
   * The message each error carries, which the scan page shows the user. Only
   * a missing-field message starts with "Missing required field: ", and it
   * names the field after that prefix.
   */
  function Message(e: DecodeError): (r: string)
    ensures e.MissingField? <==> HasPrefix(r, MissingFieldPrefix)
    ensures e.MissingField? ==> r[|MissingFieldPrefix|..] == e.field
  {
    match e
    case InvalidData => "Invalid profile data"
    case MissingField(f) => MissingFieldPrefix + f
    case InvalidEmail => "Invalid email format"
  }

  /** The keys checked, in the order they are checked. */
  const RequiredFields: seq<string> := ["id", "name", "role", "company", "phone", "email", "createdAt"]

  /** `!!data[f]`: the key holds a non-empty string (missing keys, `null` and `""` are falsy). */
  predicate Present(m: map<string, Option<string>>, f: string) {
    f in m && m[f].Some? && m[f].value != ""
  }

  /** Every required key is present. */
  predicate AllPresent(m: map<string, Option<string>>) {
    forall j :: 0 <= j < |RequiredFields| ==> Present(m, RequiredFields[j])
  }

  /** The key `f` holds the string `v`. */
  predicate HoldsString(m: map<string, Option<string>>, f: string, v: string) {
    f in m && m[f] == Some(v)
  }

  /** The string held at `f`, or `""` when there is none. */
  function StringAt(m: map<string, Option<string>>, f: string): string {
    if f in m && m[f].Some? then m[f].value else ""
  }

  /** The first of `fields` that is not present, if any. */
  function FirstMissing(m: map<string, Option<string>>, fields: seq<string>): (r: Option<nat>)
    ensures r.Some? ==> r.value < |fields| && !Present(m, fields[r.value])
    ensures r.Some? ==> forall j :: 0 <= j < r.value ==> Present(m, fields[j])
    ensures r.None? ==> forall j :: 0 <= j < |fields| ==> Present(m, fields[j])
    decreases |fields|
  {
    if |fields| == 0 then None
    else if !Present(m, fields[0]) then Some(0)
    else
      match FirstMissing(m, fields[1..])
      case None => None
      case Some(k) => Some(k + 1)
  }

  /** A run of characters matching `[^\s@]+`'s body: no white space and no `@`. */
  predicate NoSpaceOrAt(s: string) {
    forall i :: 0 <= i < |s| ==> !IsSpace(s[i]) && s[i] != '@'
  }

  /** `s` splits as `[^\s@]+ @ [^\s@]+ \. [^\s@]+` with the `@` at `at` and the `.` at `dot`. */
  predicate SplitsAsEmail(s: string, at: int, dot: int) {
    && 0 < at && at + 1 < dot && dot + 1 < |s|
    && s[at] == '@' && s[dot] == '.'
    && NoSpaceOrAt(s[..at]) && NoSpaceOrAt(s[at + 1..dot]) && NoSpaceOrAt(s[dot + 1..])
  }

  /** `/^[^\s@]+@[^\s@]+\.[^\s@]+$/.test(s)`. */
  predicate EmailRegex(s: string) {
    exists at, dot | 0 < at < |s| && 0 < dot < |s| :: SplitsAsEmail(s, at, dot)
  }

  /** The domain has a `.` that is neither its first nor its last character. */
  predicate HasInnerDot(d: string) {
    exists k | 0 < k < |d| - 1 :: d[k] == '.'
  }

  /** `s` has exactly one `@`, at `at`. */
  predicate OnlyAtSignAt(s: string, at: int) {
    0 <= at < |s| && s[at] == '@' && forall i :: 0 <= i < |s| && i != at ==> s[i] != '@'
  }

  /**
   * The email shape stated in words: exactly one `@`, no white space, a
   * non-empty local part, and a domain with a dot that is neither its first
   * nor its last character.
   */
  predicate WellFormedEmail(s: string) {
    && (forall i :: 0 <= i < |s| ==> !IsSpace(s[i]))
    && exists at | 0 <= at < |s| ::
         OnlyAtSignAt(s, at) && at > 0 && HasInnerDot(s[at + 1..])
  }

  /** The regular expression accepts exactly the well-formed emails. */
  lemma EmailRegexIff(s: string)
    ensures EmailRegex(s) <==> WellFormedEmail(s)
  {
    if EmailRegex(s) {
      var at, dot :| 0 < at < |s| && 0 < dot < |s| && SplitsAsEmail(s, at, dot);
      forall i | 0 <= i < |s| ensures !IsSpace(s[i]) && (i != at ==> s[i] != '@') {
        if i < at {
          assert s[i] == s[..at][i];
        } else if at < i < dot {
          assert s[i] == s[at + 1..dot][i - at - 1];
        } else if dot < i {
          assert s[i] == s[dot + 1..][i - dot - 1];
        }
      }
      assert OnlyAtSignAt(s, at);
      assert s[at + 1..][dot - at - 1] == '.';
      assert HasInnerDot(s[at + 1..]);
    }
    if WellFormedEmail(s) {
      var at :| 0 <= at < |s| && OnlyAtSignAt(s, at) && at > 0 && HasInnerDot(s[at + 1..]);
      var d := s[at + 1..];
      var k :| 0 < k < |d| - 1 && d[k] == '.';
      var dot := at + 1 + k;
      assert s[dot] == '.';
      assert NoSpaceOrAt(s[..at]) by {
        forall i | 0 <= i < |s[..at]| ensures !IsSpace(s[..at][i]) && s[..at][i] != '@' {
          assert s[..at][i] == s[i];
        }
      }
      var host, tld := s[at + 1..dot], s[dot + 1..];
      assert NoSpaceOrAt(host) by {
        forall i | 0 <= i < |host| ensures !IsSpace(host[i]) && host[i] != '@' {
          assert host[i] == s[at + 1 + i];
        }
      }
      assert NoSpaceOrAt(tld) by {
        forall i | 0 <= i < |tld| ensures !IsSpace(tld[i]) && tld[i] != '@' {
          assert tld[i] == s[dot + 1 + i];
        }
      }
      assert SplitsAsEmail(s, at, dot);
    }
  }

  /**
   * `validateProfileData(data)`: reject a non-object; report the first of the
   * required keys that is missing or empty; then check the email pattern;
   * otherwise hand back the same data, read as a Profile.
   */
  function Decode(p: Payload): (r: Result<Profile, DecodeError>)
    ensures p.NotAnObject? <==> r == Failure(InvalidData)
    ensures r.Failure? && r.error.MissingField? ==>
      exists k | 0 <= k < |RequiredFields| ::
        && RequiredFields[k] == r.error.field
        && !Present(p.fields, RequiredFields[k])
        && forall j :: 0 <= j < k ==> Present(p.fields, RequiredFields[j])
    ensures r == Failure(InvalidEmail) <==>
      p.AnObject? && AllPresent(p.fields) && !EmailRegex(StringAt(p.fields, "email"))
    ensures r.Success? <==>
      p.AnObject? && AllPresent(p.fields) && EmailRegex(StringAt(p.fields, "email"))
    ensures r.Success? ==>
      && HoldsString(p.fields, "id", r.value.id)
      && HoldsString(p.fields, "name", r.value.name)
      && HoldsString(p.fields, "role", r.value.role)
      && HoldsString(p.fields, "company", r.value.company)
      && HoldsString(p.fields, "phone", r.value.phone)
      && HoldsString(p.fields, "email", r.value.email)
      && HoldsString(p.fields, "createdAt", r.value.createdAt)
      && r.value.scannedAt == (if "scannedAt" in p.fields then p.fields["scannedAt"] else None)
  {
    match p
    case NotAnObject => Failure(InvalidData)
    case AnObject(m) =>
      match FirstMissing(m, RequiredFields)
      case Some(k) => Failure(MissingField(RequiredFields[k]))
      case None =>
        assert Present(m, RequiredFields[5]);
        if !EmailRegex(m["email"].value) then Failure(InvalidEmail)
        else
          assert Present(m, RequiredFields[0]) && Present(m, RequiredFields[1]) && Present(m, RequiredFields[2]);
          assert Present(m, RequiredFields[3]) && Present(m, RequiredFields[4]) && Present(m, RequiredFields[6]);
          Success(Profile(
            m["id"].value, m["name"].value, m["role"].value, m["company"].value,
            m["phone"].value, m["email"].value, m["createdAt"].value,
            if "scannedAt" in m then m["scannedAt"] else None))
  }

  /**
   * `JSON.stringify(profile)` as `JSON.parse` reads it back: every key of the
   * record, `scannedAt` only when it is set.
   */
  function Encode(p: Profile): (r: Payload)
    ensures r.AnObject?
    ensures "scannedAt" in r.fields <==> p.scannedAt.Some?
  {
    var required := map[
      "id" := Some(p.id), "name" := Some(p.name), "role" := Some(p.role),
      "company" := Some(p.company), "phone" := Some(p.phone), "email" := Some(p.email),
      "createdAt" := Some(p.createdAt)];
    AnObject(if p.scannedAt.Some? then required["scannedAt" := p.scannedAt] else required)
  }

  /** A profile the validator accepts: the seven keys non-empty and the email well formed. */
  predicate ValidProfile(p: Profile) {
    && p.id != "" && p.name != "" && p.role != "" && p.company != ""
    && p.phone != "" && p.email != "" && p.createdAt != ""
    && WellFormedEmail(p.email)
  }

  /** The encoded payload holds each of the profile's fields under its key. */
  lemma EncodeHolds(p: Profile)
    ensures var m := Encode(p).fields;
      && HoldsString(m, "id", p.id) && HoldsString(m, "name", p.name)
      && HoldsString(m, "role", p.role) && HoldsString(m, "company", p.company)
      && HoldsString(m, "phone", p.phone) && HoldsString(m, "email", p.email)
      && HoldsString(m, "createdAt", p.createdAt)
      && StringAt(m, "email") == p.email
      && (if "scannedAt" in m then m["scannedAt"] else None) == p.scannedAt
  {
  }

  /** Every required key of an encoded profile is present exactly when the field is non-empty. */
  lemma EncodeAllPresent(p: Profile)
    ensures AllPresent(Encode(p).fields) <==>
      && p.id != "" && p.name != "" && p.role != "" && p.company != ""
      && p.phone != "" && p.email != "" && p.createdAt != ""
  {
    var m := Encode(p).fields;
    EncodeHolds(p);
    assert RequiredFields[0] == "id" && RequiredFields[1] == "name" && RequiredFields[2] == "role";
    assert RequiredFields[3] == "company" && RequiredFields[4] == "phone";
    assert RequiredFields[5] == "email" && RequiredFields[6] == "createdAt";
    if AllPresent(m) {
      assert Present(m, RequiredFields[0]) && Present(m, RequiredFields[1]) && Present(m, RequiredFields[2]);
      assert Present(m, RequiredFields[3]) && Present(m, RequiredFields[4]);
      assert Present(m, RequiredFields[5]) && Present(m, RequiredFields[6]);
    }
  }

  /** Decoding an encoded profile gives it back exactly when the profile is valid. */
  lemma RoundTrip(p: Profile)
    ensures Decode(Encode(p)).Success? <==> ValidProfile(p)
    ensures ValidProfile(p) ==> Decode(Encode(p)) == Success(p)
  {
    EmailRegexIff(p.email);
    EncodeHolds(p);
    EncodeAllPresent(p);
    var r := Decode(Encode(p));
    if r.Success? {
      var q := r.value;
      assert q.id == p.id && q.name == p.name && q.role == p.role && q.company == p.company;
      assert q.phone == p.phone && q.email == p.email && q.createdAt == p.createdAt;
      assert q.scannedAt == p.scannedAt;
    }
  }

  /** A missing email is reported as missing, ahead of any format complaint. */
  lemma MissingEmailBeforeFormat(m: map<string, Option<string>>)
    requires forall j :: 0 <= j < 5 ==> Present(m, RequiredFields[j])
    requires !Present(m, "email")
    ensures Decode(AnObject(m)) == Failure(MissingField("email"))
    ensures Message(Decode(AnObject(m)).error) == "Missing required field: email"
  {
    assert FirstMissing(m, RequiredFields) == Some(5) by {
      assert RequiredFields[5] == "email";
    }
  }

  /**
   * `handleScanSuccess`: validate the parsed payload, then stamp `scannedAt`
   * with the scan time, whatever the payload carried.
   */
  function Scan(p: Payload, now: string): (r: Result<Profile, DecodeError>)
    ensures r.Failure? <==> Decode(p).Failure?
    ensures r.Failure? ==> r.error == Decode(p).error
    ensures r.Success? ==> r.value == Decode(p).value.(scannedAt := Some(now))
  {
    match Decode(p)
    case Failure(e) => Failure(e)
    case Success(q) => Success(q.(scannedAt := Some(now)))
  }

  /**
   * Sharing a valid profile and scanning it yields that profile stamped with
   * the scan time; a `scannedAt` the sharer's copy carried is replaced.
   */
  lemma ShareThenScan(p: Profile, now: string)
    requires ValidProfile(p)
    ensures Scan(Encode(p), now) == Success(p.(scannedAt := Some(now)))
  {
    RoundTrip(p);
  }
}

=== FILE: profile.dfy ===
/** The `Profile` record of `networkingTypes.ts` and the shallow merge `updateContact` applies to it. */
module Profiles {
  import opened Wrappers

  /**
   * One person's networking identity. Every field is the string the source
   * stores; `createdAt` and `scannedAt` hold ISO-8601 timestamps as text.
   * `scannedAt` is `None` when the key is absent (or JSON `null`).
   */
  datatype Profile = Profile(
    id: string,
    name: string,
    role: string,
    company: string,
    phone: string,
    email: string,
    createdAt: string,
    scannedAt: Option<string>
  )

  /** `!!p.scannedAt`: a scan stamp is present and non-empty (the empty string is falsy). */
  predicate HasScan(p: Profile) {
    p.scannedAt.Some? && p.scannedAt.value != ""
  }

  /** `p.scannedAt || p.createdAt`: the timestamp the date sort orders by. */
  function RecencyStamp(p: Profile): (t: string)
    ensures HasScan(p) ==> t == p.scannedAt.value
    ensures !HasScan(p) ==> t == p.createdAt
  {
    if HasScan(p) then p.scannedAt.value else p.createdAt
  }

  /** A `Partial<Profile>`: the keys the caller supplied. */
  datatype Patch = Patch(
    id: Option<string>,
    name: Option<string>,
    role: Option<string>,
    company: Option<string>,
    phone: Option<string>,
    email: Option<string>,
    createdAt: Option<string>,
    scannedAt: Option<string>
  )

  const EmptyPatch := Patch(None, None, None, None, None, None, None, None)

  /** Every key the patch supplies already holds that value in `p`. */
  predicate Agrees(p: Profile, patch: Patch) {
    && (patch.id.None? || patch.id.value == p.id)
    && (patch.name.None? || patch.name.value == p.name)
    && (patch.role.None? || patch.role.value == p.role)
    && (patch.company.None? || patch.company.value == p.company)
    && (patch.phone.None? || patch.phone.value == p.phone)
    && (patch.email.None? || patch.email.value == p.email)
    && (patch.createdAt.None? || patch.createdAt.value == p.createdAt)
    && (patch.scannedAt.None? || patch.scannedAt == p.scannedAt)
  }

  /**
   * `{ ...p, ...patch }`: every key the patch supplies wins, the rest come from
   * `p`; the record is left as it was exactly when the patch agrees with it.
   */
  function Merge(p: Profile, patch: Patch): (q: Profile)
    ensures q == p <==> Agrees(p, patch)
    ensures Agrees(q, patch)
  {
    Profile(
      patch.id.GetOr(p.id),
      patch.name.GetOr(p.name),
      patch.role.GetOr(p.role),
      patch.company.GetOr(p.company),
      patch.phone.GetOr(p.phone),
      patch.email.GetOr(p.email),
      patch.createdAt.GetOr(p.createdAt),
      if patch.scannedAt.Some? then patch.scannedAt else p.scannedAt
    )
  }

  /** A merge agrees with the patch on every key it supplies and with the old record elsewhere. */
  lemma MergeFields(p: Profile, patch: Patch)
    ensures var q := Merge(p, patch);
      && q.id == (if patch.id.Some? then patch.id.value else p.id)
      && q.name == (if patch.name.Some? then patch.name.value else p.name)
      && q.role == (if patch.role.Some? then patch.role.value else p.role)
      && q.company == (if patch.company.Some? then patch.company.value else p.company)
      && q.phone == (if patch.phone.Some? then patch.phone.value else p.phone)
      && q.email == (if patch.email.Some? then patch.email.value else p.email)
      && q.createdAt == (if patch.createdAt.Some? then patch.createdAt.value else p.createdAt)
      && q.scannedAt == (if patch.scannedAt.Some? then patch.scannedAt else p.scannedAt)
  {
  }

  /** Merging an empty patch changes nothing. */
  lemma MergeEmpty(p: Profile)
    ensures Merge(p, EmptyPatch) == p
  {
  }

  /** Applying the same patch twice is the same as applying it once. */
  lemma MergeIdempotent(p: Profile, patch: Patch)
    ensures Merge(Merge(p, patch), patch) == Merge(p, patch)
  {
  }
}

=== FILE: profile_form.dfy ===
/**
 * The create/edit profile form of `CreateProfile.tsx`: the zod schema that
 * gates submission, and the record the submit handler assembles and saves as
 * "my profile". zod's `.email()` check is library code and is passed in as
 * `emailOk`; the clock is `nowIso`; the random draws of `generateId` are
 * `draws`.
 */
module ProfileForm {
  import opened Wrappers
  import opened Text
  import opened Profiles
  import opened ContactStore
  import Uuid

  /** The five values the form collects. */
  datatype FormData = FormData(name: string, role: string, company: string, phone: string, email: string)

  /** One complaint of the schema. */
  datatype Issue =
    | NameTooShort | NameTooLong
    | RoleTooShort | RoleTooLong
    | CompanyTooShort | CompanyTooLong
    | PhoneFormat | PhoneTooShort
    | EmailInvalid

  /** A complaint that a field is shorter than its minimum. */
  predicate TooShort(i: Issue) {
    i.NameTooShort? || i.RoleTooShort? || i.CompanyTooShort? || i.PhoneTooShort?
  }

  const TooShortTail: string := " must be at least 2 characters"
  const TooLongTail: string := " is too long"

  /** A field's label followed by the wording of its complaint. */
  function Labelled(field: string, tail: string): (r: string)
    ensures HasPrefix(r, field) && EndsWith(r, tail)
  {
    field + tail
  }

  /**
   * The message the form shows for each complaint. A too-long complaint reads
   * "… is too long", and a too-short complaint about a text field says the
   * field "must be at least 2 characters".
   */
  function Message(i: Issue): (r: string)
    ensures i.NameTooLong? || i.RoleTooLong? || i.CompanyTooLong? ==> EndsWith(r, TooLongTail)
    ensures TooShort(i) && !i.PhoneTooShort? ==> EndsWith(r, TooShortTail)
  {
    match i
    case NameTooShort => Labelled("Name", TooShortTail)
    case NameTooLong => Labelled("Name", TooLongTail)
    case RoleTooShort => Labelled("Role", TooShortTail)
    case RoleTooLong => Labelled("Role", TooLongTail)
    case CompanyTooShort => Labelled("Company name", TooShortTail)
    case CompanyTooLong => Labelled("Company name", TooLongTail)
    case PhoneFormat => "Invalid phone number format"
    case PhoneTooShort => "Phone number is too short"
    case EmailInvalid => "Invalid email address"
  }

  /** The length and first letter of each message, which already tell them apart. */
  function Signature(i: Issue): (int, char) {
    match i
    case NameTooShort => (34, 'N')
    case NameTooLong => (16, 'N')
    case RoleTooShort => (34, 'R')
    case RoleTooLong => (16, 'R')
    case CompanyTooShort => (42, 'C')
    case CompanyTooLong => (24, 'C')
    case PhoneFormat => (27, 'I')
    case PhoneTooShort => (25, 'P')
    case EmailInvalid => (21, 'I')
  }

  lemma MessageSignature(i: Issue)
    ensures |Message(i)| > 0 && (|Message(i)|, Message(i)[0]) == Signature(i)
  {
  }

  /** No two complaints share a message, so the text shown identifies the complaint. */
  lemma MessagesDistinct(i: Issue, j: Issue)
    ensures Message(i) == Message(j) <==> i == j
  {
    MessageSignature(i);
    MessageSignature(j);
  }

  /** `z.string().min(2, …).max(100, …)`: both checks run; lengths are in UTF-16 units. */
  function LengthIssues(s: string, tooShort: Issue, tooLong: Issue): seq<Issue> {
    (if Utf16Length(s) < 2 then [tooShort] else []) + (if Utf16Length(s) > 100 then [tooLong] else [])
  }

  /** A character of the phone class `[\d\s\-\+\(\)]`. */
  predicate IsPhoneChar(c: char) {
    IsDigit(c) || IsSpace(c) || c == '-' || c == '+' || c == '(' || c == ')'
  }

  /** `/^[\d\s\-\+\(\)]+$/.test(s)`. */
  predicate PhonePattern(s: string) {
    |s| >= 1 && forall i :: 0 <= i < |s| ==> IsPhoneChar(s[i])
  }

  /** The complaints about the phone: the pattern, then the minimum length. */
  function PhoneIssues(phone: string): seq<Issue> {
    (if PhonePattern(phone) then [] else [PhoneFormat]) + (if Utf16Length(phone) < 10 then [PhoneTooShort] else [])
  }

  /**
   * `profileSchema`: every complaint about the form, field by field in schema
   * order. A length field draws at most one complaint, so there are at most six.
   */
  function SchemaIssues(f: FormData, emailOk: string -> bool): (r: seq<Issue>)
    ensures |r| <= 6
    ensures EmailInvalid in r <==> !emailOk(f.email)
    ensures PhoneFormat in r <==> !PhonePattern(f.phone)
  {
    LengthIssues(f.name, NameTooShort, NameTooLong)
      + LengthIssues(f.role, RoleTooShort, RoleTooLong)
      + LengthIssues(f.company, CompanyTooShort, CompanyTooLong)
      + PhoneIssues(f.phone)
      + (if emailOk(f.email) then [] else [EmailInvalid])
  }

  /** Each complaint comes from the part of the schema for its own field. */
  lemma IssueSource(f: FormData, emailOk: string -> bool, i: Issue)
    ensures i in SchemaIssues(f, emailOk) <==>
      || i in LengthIssues(f.name, NameTooShort, NameTooLong)
      || i in LengthIssues(f.role, RoleTooShort, RoleTooLong)
      || i in LengthIssues(f.company, CompanyTooShort, CompanyTooLong)
      || i in PhoneIssues(f.phone)
      || (i == EmailInvalid && !emailOk(f.email))
  {
  }

  /**
   * The schema checks the name first, so a name shorter than two characters is
   * the first complaint, shown with its own message.
   */
  lemma ShortNameReportedFirst(f: FormData, emailOk: string -> bool)
    requires Utf16Length(f.name) < 2
    ensures |SchemaIssues(f, emailOk)| > 0
    ensures SchemaIssues(f, emailOk)[0] == NameTooShort
    ensures HasPrefix(Message(SchemaIssues(f, emailOk)[0]), "Name")
    ensures EndsWith(Message(SchemaIssues(f, emailOk)[0]), TooShortTail)
  {
    assert LengthIssues(f.name, NameTooShort, NameTooLong) == [NameTooShort];
  }

  /** A text field between 2 and 100 characters long, inclusive. */
  predicate LengthOk(s: string) {
    2 <= Utf16Length(s) <= 100
  }

  /** A phone of at least ten characters, each a digit, white space, `-`, `+`, `(` or `)`. */
  predicate PhoneOk(s: string) {
    |s| >= 10 && forall i :: 0 <= i < |s| ==> IsPhoneChar(s[i])
  }

  /** The schema accepts the form. */
  predicate Accepted(f: FormData, emailOk: string -> bool) {
    SchemaIssues(f, emailOk) == []
  }

  /** The name is accepted exactly when its length is between 2 and 100. */
  lemma NameRule(f: FormData, emailOk: string -> bool)
    ensures NameTooShort !in SchemaIssues(f, emailOk) && NameTooLong !in SchemaIssues(f, emailOk)
      <==> LengthOk(f.name)
  {
    IssueSource(f, emailOk, NameTooShort);
    IssueSource(f, emailOk, NameTooLong);
  }

  /** Role and company follow the same 2..100 rule. */
  lemma RoleAndCompanyRule(f: FormData, emailOk: string -> bool)
    ensures RoleTooShort !in SchemaIssues(f, emailOk) && RoleTooLong !in SchemaIssues(f, emailOk)
      <==> LengthOk(f.role)
    ensures CompanyTooShort !in SchemaIssues(f, emailOk) && CompanyTooLong !in SchemaIssues(f, emailOk)
      <==> LengthOk(f.company)
  {
    IssueSource(f, emailOk, RoleTooShort);
    IssueSource(f, emailOk, RoleTooLong);
    IssueSource(f, emailOk, CompanyTooShort);
    IssueSource(f, emailOk, CompanyTooLong);
  }

  /** A phone matching the pattern is all BMP characters, so its UTF-16 length is its length. */
  lemma PhonePatternLength(phone: string)
    requires PhonePattern(phone)
    ensures Utf16Length(phone) == |phone|
  {
    forall i | 0 <= i < |phone| ensures phone[i] as int < 0x1_0000 {
      assert IsPhoneChar(phone[i]);
    }
  }

  lemma PhoneIssuesRule(phone: string)
    ensures PhoneFormat !in PhoneIssues(phone) && PhoneTooShort !in PhoneIssues(phone) <==> PhoneOk(phone)
  {
    if PhonePattern(phone) {
      PhonePatternLength(phone);
    }
  }

  /** The phone passes both of its checks exactly when it is `PhoneOk`. */
  lemma PhoneRule(f: FormData, emailOk: string -> bool)
    ensures PhoneFormat !in SchemaIssues(f, emailOk) && PhoneTooShort !in SchemaIssues(f, emailOk)
      <==> PhoneOk(f.phone)
  {
    IssueSource(f, emailOk, PhoneFormat);
    IssueSource(f, emailOk, PhoneTooShort);
    PhoneIssuesRule(f.phone);
  }

  /** The form is accepted exactly when each of its five fields is. */
  lemma AcceptedIff(f: FormData, emailOk: string -> bool)
    ensures Accepted(f, emailOk) <==>
      LengthOk(f.name) && LengthOk(f.role) && LengthOk(f.company) && PhoneOk(f.phone) && emailOk(f.email)
  {
    NameRule(f, emailOk);
    RoleAndCompanyRule(f, emailOk);
    PhoneRule(f, emailOk);
    IssueSource(f, emailOk, EmailInvalid);
  }

  /**
   * The record `onSubmit` builds: the stored profile's id and creation time
   * when they are non-empty, a fresh id and the current time otherwise, and
   * the five form values. No `scannedAt`.
   */
  function AssembleProfile(existing: Option<Profile>, f: FormData, draws: seq<Uuid.Nibble>, nowIso: string): (p: Profile)
    requires |draws| == 31
    ensures existing.Some? && existing.value.id != "" ==> p.id == existing.value.id
    ensures !(existing.Some? && existing.value.id != "") ==> p.id == Uuid.GenerateId(draws) && |p.id| == 36
    ensures existing.Some? && existing.value.createdAt != "" ==> p.createdAt == existing.value.createdAt
    ensures !(existing.Some? && existing.value.createdAt != "") ==> p.createdAt == nowIso
    ensures p.name == f.name && p.role == f.role && p.company == f.company
    ensures p.phone == f.phone && p.email == f.email
    ensures p.scannedAt == None
  {
    var id := if existing.Some? && existing.value.id != "" then existing.value.id else Uuid.GenerateId(draws);
    var createdAt := if existing.Some? && existing.value.createdAt != "" then existing.value.createdAt else nowIso;
    Profile(id, f.name, f.role, f.company, f.phone, f.email, createdAt, None)
  }

  /** What a submission came to. */
  datatype SubmitOutcome = Rejected(issues: seq<Issue>) | Saved | SaveFailed

  /**
   * Submitting the form: a form the schema rejects never reaches `onSubmit`;
   * an accepted one is assembled against the stored profile and saved with
   * `saveMyProfile`.
   */
  function Submit(s: Store, f: FormData, emailOk: string -> bool, draws: seq<Uuid.Nibble>, nowIso: string, writeFails: bool): (r: (Store, SubmitOutcome))
    requires |draws| == 31
    ensures r.1.Rejected? <==> !Accepted(f, emailOk)
    ensures r.1.Rejected? ==> r.1.issues == SchemaIssues(f, emailOk) && r.0 == s
    ensures r.1 == SaveFailed <==> Accepted(f, emailOk) && writeFails
    ensures r.1 == SaveFailed ==> r.0 == s
    ensures r.1 == Saved ==> GetMyProfile(r.0) == Some(AssembleProfile(GetMyProfile(s), f, draws, nowIso))
    ensures r.0.contacts == s.contacts
  {
    var issues := SchemaIssues(f, emailOk);
    if issues != [] then (s, Rejected(issues))
    else
      var (s', ok) := SaveMyProfile(s, AssembleProfile(GetMyProfile(s), f, draws, nowIso), writeFails);
      (s', if ok then Saved else SaveFailed)
  }

  /**
   * Edit in place: once a profile has been assembled, assembling the form
   * again against it keeps its id and creation time, whatever the new draws
   * and clock say, and takes the new form's values.
   */
  lemma EditKeepsIdentity(
    existing: Option<Profile>, f1: FormData, f2: FormData,
    draws1: seq<Uuid.Nibble>, draws2: seq<Uuid.Nibble>, now1: string, now2: string)
    requires |draws1| == 31 && |draws2| == 31 && now1 != ""
    ensures
      var first := AssembleProfile(existing, f1, draws1, now1);
      var second := AssembleProfile(Some(first), f2, draws2, now2);
      && second.id == first.id
      && second.createdAt == first.createdAt
      && second.name == f2.name && second.role == f2.role && second.company == f2.company
      && second.phone == f2.phone && second.email == f2.email
  {
  }
}

=== FILE: queries.dfy ===
/**
 * The read-only helpers of `networking.ts`: `getNetworkingStats`,
 * `searchContacts` and `sortContacts`. Timestamps are ISO-8601 text in the
 * record; `timeOf` stands for `new Date(t).getTime()` (milliseconds since the
 * epoch) and `now` for the clock at the moment of the call.
 */
module Queries {
  import opened Text
  import opened Seqs
  import opened Profiles
  import opened ContactStore

  const DayMs: int := 86_400_000
  /** The stats window: seven days back from `now`. */
  const WeekMs: int := 7 * DayMs

  datatype NetworkingStats = NetworkingStats(totalContacts: nat, recentScans: nat, companiesRepresented: nat)

  /** A contact scanned in the last seven days, the lower bound included. */
  predicate IsRecent(c: Profile, now: int, timeOf: string -> int) {
    HasScan(c) && timeOf(c.scannedAt.value) >= now - WeekMs
  }

  /** The key companies are counted by: the lower-cased company name. */
  function CompanyKey(c: Profile): string {
    Lower(c.company)
  }

  /** `getNetworkingStats()` over the stored contact list. */
  function Stats(s: Store, now: int, timeOf: string -> int): (r: NetworkingStats)
    ensures r.totalContacts == |GetContacts(s)|
    ensures r.recentScans == Count(GetContacts(s), (c: Profile) => IsRecent(c, now, timeOf))
    ensures r.recentScans <= r.totalContacts
    ensures r.companiesRepresented <= r.totalContacts
    ensures r.totalContacts > 0 ==> r.companiesRepresented >= 1
    ensures r.companiesRepresented == |set c | c in GetContacts(s) :: Lower(c.company)|
  {
    var cs := GetContacts(s);
    var recent := Filter(cs, (c: Profile) => IsRecent(c, now, timeOf));
    FilterLength(cs, (c: Profile) => IsRecent(c, now, timeOf));
    assert Image(cs, CompanyKey) == set c | c in cs :: Lower(c.company) by {
      assert forall c :: CompanyKey(c) == Lower(c.company);
    }
    NetworkingStats(|cs|, |recent|, |Image(cs, CompanyKey)|)
  }

  /** A contact matches a lower-cased query on its name, company, role or email. */
  predicate MatchesQuery(c: Profile, lowerQuery: string) {
    || Contains(Lower(c.name), lowerQuery)
    || Contains(Lower(c.company), lowerQuery)
    || Contains(Lower(c.role), lowerQuery)
    || Contains(Lower(c.email), lowerQuery)
  }

  /**
   * `searchContacts(q)`: the whole list for a blank query; otherwise the
   * contacts matching `q.toLowerCase()` (the query itself is not trimmed), in
   * stored order.
   */
  function Search(s: Store, q: string): (r: seq<Profile>)
    ensures IsBlank(q) ==> r == GetContacts(s)
    ensures !IsBlank(q) ==> forall c :: c in r <==> c in GetContacts(s) && MatchesQuery(c, Lower(q))
    ensures !IsBlank(q) ==> forall c :: multiset(r)[c] == if MatchesQuery(c, Lower(q)) then multiset(GetContacts(s))[c] else 0
    ensures SubsequenceOf(r, GetContacts(s))
  {
    TrimEmptyIffBlank(q);
    SubsequenceReflexive(GetContacts(s));
    forall c ensures multiset(Filter(GetContacts(s), (c: Profile) => MatchesQuery(c, Lower(q))))[c]
      == if MatchesQuery(c, Lower(q)) then multiset(GetContacts(s))[c] else 0
    {
      FilterMultiplicity(GetContacts(s), (c: Profile) => MatchesQuery(c, Lower(q)), c);
    }
    if Trim(q) == [] then GetContacts(s)
    else Filter(GetContacts(s), (c: Profile) => MatchesQuery(c, Lower(q)))
  }

  /** For a query that is not blank the search is the filter on `MatchesQuery`. */
  lemma SearchFilters(s: Store, q: string)
    requires !IsBlank(q)
    ensures Search(s, q) == Filter(GetContacts(s), (c: Profile) => MatchesQuery(c, Lower(q)))
  {
    TrimEmptyIffBlank(q);
  }

  /** The three orders `sortContacts` offers. */
  datatype SortBy = ByName | ByCompany | ByDate

  /**
   * `a` may stand before `b` in the order `order`: names and companies ascending
   * (lexicographic order standing in for `localeCompare`), dates most recent
   * first, a contact's date being `scannedAt || createdAt`.
   */
  predicate InOrder(a: Profile, b: Profile, order: SortBy, timeOf: string -> int) {
    match order
    case ByName => LexLe(a.name, b.name)
    case ByCompany => LexLe(a.company, b.company)
    case ByDate => timeOf(RecencyStamp(b)) <= timeOf(RecencyStamp(a))
  }

  lemma InOrderTotal(a: Profile, b: Profile, order: SortBy, timeOf: string -> int)
    ensures InOrder(a, b, order, timeOf) || InOrder(b, a, order, timeOf)
  {
    match order
    case ByName => LexLeTotal(a.name, b.name);
    case ByCompany => LexLeTotal(a.company, b.company);
    case ByDate =>
  }

  lemma InOrderTransitive(a: Profile, b: Profile, c: Profile, order: SortBy, timeOf: string -> int)
    requires InOrder(a, b, order, timeOf) && InOrder(b, c, order, timeOf)
    ensures InOrder(a, c, order, timeOf)
  {
    match order
    case ByName => LexLeTransitive(a.name, b.name, c.name);
    case ByCompany => LexLeTransitive(a.company, b.company, c.company);
    case ByDate =>
  }

  ghost predicate Sorted(cs: seq<Profile>, order: SortBy, timeOf: string -> int) {
    forall i, j :: 0 <= i < j < |cs| ==> InOrder(cs[i], cs[j], order, timeOf)
  }

  /** A sorted list stays sorted with `y` in front when `y` may precede each of its elements. */
  lemma PrependSorted(y: Profile, rest: seq<Profile>, order: SortBy, timeOf: string -> int)
    requires Sorted(rest, order, timeOf)
    requires forall z :: z in rest ==> InOrder(y, z, order, timeOf)
    ensures Sorted([y] + rest, order, timeOf)
  {
    forall i, j | 0 <= i < j < |[y] + rest| ensures InOrder(([y] + rest)[i], ([y] + rest)[j], order, timeOf) {
      assert ([y] + rest)[j] == rest[j - 1];
      if i > 0 {
        assert ([y] + rest)[i] == rest[i - 1];
      }
    }
  }

  /** In a sorted list the head may precede everything after it. */
  lemma HeadPrecedesTail(cs: seq<Profile>, z: Profile, order: SortBy, timeOf: string -> int)
    requires Sorted(cs, order, timeOf) && |cs| > 0
    requires z in multiset(cs[1..])
    ensures InOrder(cs[0], z, order, timeOf)
  {
    var k :| 0 <= k < |cs[1..]| && cs[1..][k] == z;
    assert cs[k + 1] == z;
  }

  /** Put `x` before the first element it may precede; it goes ahead of its equals. */
  function Insert(x: Profile, cs: seq<Profile>, order: SortBy, timeOf: string -> int): (r: seq<Profile>)
    requires Sorted(cs, order, timeOf)
    ensures multiset(r) == multiset(cs) + multiset{x}
    ensures Sorted(r, order, timeOf)
    decreases |cs|
  {
    if |cs| == 0 then [x]
    else if InOrder(x, cs[0], order, timeOf) then
      assert forall z :: z in cs ==> InOrder(x, z, order, timeOf) by {
        forall z | z in cs ensures InOrder(x, z, order, timeOf) {
          var j :| 0 <= j < |cs| && cs[j] == z;
          if j > 0 {
            InOrderTransitive(x, cs[0], cs[j], order, timeOf);
          }
        }
      }
      PrependSorted(x, cs, order, timeOf);
      [x] + cs
    else
      InOrderTotal(x, cs[0], order, timeOf);
      var rest := Insert(x, cs[1..], order, timeOf);
      assert cs == [cs[0]] + cs[1..];
      assert forall z :: z in rest ==> InOrder(cs[0], z, order, timeOf) by {
        forall z | z in rest ensures InOrder(cs[0], z, order, timeOf) {
          assert z in multiset(rest);
          if z != x {
            HeadPrecedesTail(cs, z, order, timeOf);
          }
        }
      }
      PrependSorted(cs[0], rest, order, timeOf);
      [cs[0]] + rest
  }

  /**
   * `sortContacts(list, order)`: a sorted copy of the list; the input is a value
   * and is left as it was. Insertion keeps equal contacts in their input
   * order, as JavaScript's stable `Array.prototype.sort` does.
   */
  function Sort(cs: seq<Profile>, order: SortBy, timeOf: string -> int): (r: seq<Profile>)
    ensures multiset(r) == multiset(cs)
    ensures |r| == |cs|
    ensures Sorted(r, order, timeOf)
    decreases |cs|
  {
    if |cs| == 0 then []
    else
      assert cs == [cs[0]] + cs[1..];
      Insert(cs[0], Sort(cs[1..], order, timeOf), order, timeOf)
  }

  /** The tail of a sorted list is sorted. */
  lemma SortedTail(cs: seq<Profile>, order: SortBy, timeOf: string -> int)
    requires Sorted(cs, order, timeOf) && |cs| > 0
    ensures Sorted(cs[1..], order, timeOf)
  {
    forall i, j | 0 <= i < j < |cs[1..]| ensures InOrder(cs[1..][i], cs[1..][j], order, timeOf) {
      assert cs[1..][i] == cs[i + 1] && cs[1..][j] == cs[j + 1];
    }
  }

  /** Contacts that share a name are the same record. */
  predicate NamesIdentify(cs: seq<Profile>) {
    forall x, y :: x in cs && y in cs && x.name == y.name ==> x == y
  }

  /** Two name-sorted arrangements of the same contacts start with the same one. */
  lemma SameHeadByName(a: seq<Profile>, b: seq<Profile>, timeOf: string -> int)
    requires multiset(a) == multiset(b) && |a| > 0
    requires Sorted(a, ByName, timeOf) && Sorted(b, ByName, timeOf)
    requires NamesIdentify(a)
    ensures a[0] == b[0]
  {
    assert a[0] in multiset(b) && |b| > 0;
    assert b[0] in multiset(a);
    var k :| 0 <= k < |b| && b[k] == a[0];
    var m :| 0 <= m < |a| && a[m] == b[0];
    if k > 0 && m > 0 {
      assert LexLe(b[0].name, a[0].name);
      assert LexLe(a[0].name, b[0].name);
      LexLeAntisymmetric(a[0].name, b[0].name);
      assert a[m] in a && a[0] in a;
    }
  }

  /**
   * When no two different contacts share a name, sorting by name leaves no
   * choice: every name-sorted arrangement of the same contacts is the same
   * list, whatever order `Array.prototype.sort` visits them in.
   */
  lemma {:induction false} SortedByNameUnique(a: seq<Profile>, b: seq<Profile>, timeOf: string -> int)
    requires multiset(a) == multiset(b)
    requires Sorted(a, ByName, timeOf) && Sorted(b, ByName, timeOf)
    requires NamesIdentify(a)
    ensures a == b
    decreases |a|
  {
    if |a| == 0 {
      assert |b| == |multiset(b)| == 0;
    } else {
      SameHeadByName(a, b, timeOf);
      assert a == [a[0]] + a[1..] && b == [b[0]] + b[1..];
      assert multiset(a) == multiset{a[0]} + multiset(a[1..]);
      assert multiset(b) == multiset{a[0]} + multiset(b[1..]);
      assert multiset(a[1..]) == multiset(a) - multiset{a[0]} == multiset(b[1..]);
      SortedTail(a, ByName, timeOf);
      SortedTail(b, ByName, timeOf);
      assert forall x :: x in a[1..] ==> x in a;
      SortedByNameUnique(a[1..], b[1..], timeOf);
    }
  }

  /** `sortContacts(list, 'name')` is the one name-sorted arrangement when names identify contacts. */
  lemma SortByNameDetermined(cs: seq<Profile>, r: seq<Profile>, timeOf: string -> int)
    requires NamesIdentify(cs)
    requires multiset(r) == multiset(cs) && Sorted(r, ByName, timeOf)
    ensures Sort(cs, ByName, timeOf) == r
  {
    var sorted := Sort(cs, ByName, timeOf);
    assert forall x :: x in sorted <==> x in multiset(cs);
    SortedByNameUnique(sorted, r, timeOf);
  }

  /** Some contact of `cs` has the company of `c`, ignoring case. */
  predicate CompanyListed(cs: seq<Profile>, c: Profile) {
    exists i | 0 <= i < |cs| :: CompanyKey(cs[i]) == CompanyKey(c)
  }

  /** Saving a contact counts it once more, and adds its company if that is new. */
  lemma StatsAfterSave(s: Store, c: Profile, writeFails: bool, now: int, timeOf: string -> int)
    requires SaveContact(s, c, writeFails).Success?
    ensures var before := Stats(s, now, timeOf);
      var after := Stats(SaveContact(s, c, writeFails).value, now, timeOf);
      && after.totalContacts == before.totalContacts + 1
      && after.recentScans == before.recentScans + (if IsRecent(c, now, timeOf) then 1 else 0)
      && after.companiesRepresented == before.companiesRepresented + (if CompanyListed(GetContacts(s), c) then 0 else 1)
  {
    var cs := GetContacts(s);
    var s' := SaveContact(s, c, writeFails).value;
    assert GetContacts(s') == cs + [c];
    var recent := (x: Profile) => IsRecent(x, now, timeOf);
    assert Stats(s', now, timeOf).recentScans == Count(cs + [c], recent);
    assert Stats(s, now, timeOf).recentScans == Count(cs, recent);
    CountAppend(cs, c, recent);
    CompaniesAfterAppend(cs, c);
  }

  lemma CompaniesAfterAppend(cs: seq<Profile>, c: Profile)
    ensures |Image(cs + [c], CompanyKey)| == |Image(cs, CompanyKey)| + (if CompanyListed(cs, c) then 0 else 1)
  {
    ImageAppendSize(cs, c, CompanyKey);
    if CompanyListed(cs, c) {
      var i :| 0 <= i < |cs| && CompanyKey(cs[i]) == CompanyKey(c);
      assert cs[i] in cs;
    }
  }

  lemma LowerKeepsBlank(q: string)
    ensures IsBlank(Lower(q)) <==> IsBlank(q)
  {
    forall i | 0 <= i < |q| ensures IsSpace(Lower(q)[i]) <==> IsSpace(q[i]) {
    }
  }

  /** The search ignores the case of the query. */
  lemma SearchIgnoresQueryCase(s: Store, q: string)
    ensures Search(s, q) == Search(s, Lower(q))
  {
    LowerKeepsBlank(q);
    LowerIdempotent(q);
    TrimEmptyIffBlank(q);
    TrimEmptyIffBlank(Lower(q));
    FilterExtensional(GetContacts(s),
      (c: Profile) => MatchesQuery(c, Lower(q)),
      (c: Profile) => MatchesQuery(c, Lower(Lower(q))));
  }

  /** After a save, the search finds what it found before and then the new contact if it matches. */
  lemma SearchAfterSave(s: Store, c: Profile, writeFails: bool, q: string)
    requires SaveContact(s, c, writeFails).Success?
    ensures Search(SaveContact(s, c, writeFails).value, q)
      == Search(s, q) + (if IsBlank(q) || MatchesQuery(c, Lower(q)) then [c] else [])
  {
    var s' := SaveContact(s, c, writeFails).value;
    if !IsBlank(q) {
      var p := (x: Profile) => MatchesQuery(x, Lower(q));
      SearchFilters(s, q);
      SearchFilters(s', q);
      FilterAppend(GetContacts(s), [c], p);
      assert [c][1..] == [];
    }
  }
}

=== FILE: scenarios.dfy ===
/**
 * Worked example runs over small, concrete contact lists and forms, each
 * stated for every clock and every date reading that fits the example.
 */
module Scenarios {
  import opened Wrappers
  import opened Text
  import opened Seqs
  import opened Profiles
  import opened ContactStore
  import opened Queries
  import opened Exchange
  import ProfileForm
  import Uuid

  const Al := Profile("1", "Al", "PM", "Acme", "5550000000", "a@a.io", "t", None)
  const Bo := Profile("2", "Bo", "PM", "Beta", "5550000001", "b@b.io", "t", None)
  const Cy := Profile("3", "Cy", "PM", "acme Corp", "5550000002", "c@c.io", "t", None)

  lemma AcmeMatches()
    ensures MatchesQuery(Al, "acme") && MatchesQuery(Cy, "acme")
  {
    assert Lower("Acme") == "acme";
    assert OccursAt(Lower(Al.company), "acme", 0);
    assert Lower("acme Corp")[..4] == "acme";
    assert OccursAt(Lower(Cy.company), "acme", 0);
  }

  lemma BetaDoesNotMatch()
    ensures !MatchesQuery(Bo, "acme")
  {
    assert Lower(Bo.company) == "beta";
    assert !OccursAt(Lower(Bo.company), "acme", 0) by {
      assert Lower(Bo.company)[0..4][0] != "acme"[0];
    }
    assert Lower(Bo.email) == "b@b.io";
    forall i | 0 <= i <= 2 ensures !OccursAt(Lower(Bo.email), "acme", i) {
      assert Lower(Bo.email)[i] != 'a';
    }
  }

  /** Filtering three elements when only the middle one fails the test. */
  lemma FilterDropsMiddle<T(!new)>(a: T, b: T, c: T, p: T -> bool)
    requires p(a) && !p(b) && p(c)
    ensures Filter([a, b, c], p) == [a, c]
  {
    assert [a, b, c][1..] == [b, c];
    assert [b, c][1..] == [c];
    assert Filter([c], p) == [c];
  }

  /** Searching "acme" finds "Acme" and "acme Corp" but not "Beta", in stored order. */
  lemma SearchAcme()
    ensures Search(Store(Absent, Holds([Al, Bo, Cy])), "acme") == [Al, Cy]
  {
    assert !IsBlank("acme") by { assert !IsSpace("acme"[0]); }
    assert Lower("acme") == "acme";
    SearchFilters(Store(Absent, Holds([Al, Bo, Cy])), "acme");
    AcmeMatches();
    BetaDoesNotMatch();
    FilterDropsMiddle(Al, Bo, Cy, (c: Profile) => MatchesQuery(c, Lower("acme")));
  }

  /** A scan six days ago is recent, one eight days ago is not. */
  lemma SevenDayWindow(now: int, timeOf: string -> int)
    requires timeOf("six") == now - 6 * DayMs
    requires timeOf("eight") == now - 8 * DayMs
    ensures
      var a := Profile("1", "Al", "PM", "Acme", "5550000000", "a@a.io", "t", Some("six"));
      var b := Profile("2", "Bo", "PM", "Beta", "5550000001", "b@b.io", "t", Some("eight"));
      Stats(Store(Absent, Holds([a, b])), now, timeOf).recentScans == 1
  {
    var a := Profile("1", "Al", "PM", "Acme", "5550000000", "a@a.io", "t", Some("six"));
    var b := Profile("2", "Bo", "PM", "Beta", "5550000001", "b@b.io", "t", Some("eight"));
    assert IsRecent(a, now, timeOf) && !IsRecent(b, now, timeOf);
    assert [a, b][1..] == [b];
  }

  /** Three contacts scanned at increasing times sort most recent first. */
  lemma DateSortNewestFirst(timeOf: string -> int, c1: Profile, c2: Profile, c3: Profile)
    requires HasScan(c1) && HasScan(c2) && HasScan(c3)
    requires timeOf(c1.scannedAt.value) < timeOf(c2.scannedAt.value) < timeOf(c3.scannedAt.value)
    ensures Sort([c1, c2, c3], ByDate, timeOf) == [c3, c2, c1]
  {
    assert !InOrder(c2, c3, ByDate, timeOf) && !InOrder(c1, c3, ByDate, timeOf) && !InOrder(c1, c2, ByDate, timeOf);
    assert [c1, c2, c3][1..] == [c2, c3];
    assert [c2, c3][1..] == [c3];
    var s3 := Sort([c3], ByDate, timeOf);
    assert s3 == [c3];
    var s23 := Insert(c2, s3, ByDate, timeOf);
    assert s23 == [c3] + Insert(c2, [], ByDate, timeOf);
    assert s23 == [c3, c2];
    assert Sort([c2, c3], ByDate, timeOf) == s23;
    var s123 := Insert(c1, s23, ByDate, timeOf);
    assert s123 == [c3] + Insert(c1, [c2], ByDate, timeOf);
    assert [c3, c2][1..] == [c2];
    assert Insert(c1, [c2], ByDate, timeOf) == [c2] + Insert(c1, [], ByDate, timeOf);
    assert s123 == [c3, c2, c1];
  }

  const AshaForm := ProfileForm.FormData("Asha Rao", "PM", "Acme", "+911234567890", "asha@acme.com")

  /** The example form passes the schema whenever the email check accepts its address. */
  lemma AshaFormAccepted(emailOk: string -> bool)
    requires emailOk("asha@acme.com")
    ensures ProfileForm.Accepted(AshaForm, emailOk)
  {
    AshaFieldsOk();
    ProfileForm.AcceptedIff(AshaForm, emailOk);
  }

  lemma AshaFieldsOk()
    ensures ProfileForm.LengthOk(AshaForm.name) && ProfileForm.LengthOk(AshaForm.role)
    ensures ProfileForm.LengthOk(AshaForm.company) && ProfileForm.PhoneOk(AshaForm.phone)
  {
    var phone := AshaForm.phone;
    assert |phone| == 13;
    forall i | 0 <= i < |phone| ensures ProfileForm.IsPhoneChar(phone[i]) { }
  }

  /** On a device with nothing stored, submitting the example form saves a fresh, valid profile. */
  lemma CreateOnFreshDevice(emailOk: string -> bool, draws: seq<Uuid.Nibble>, created: string)
    requires |draws| == 31 && created != ""
    requires emailOk("asha@acme.com")
    ensures ProfileForm.Submit(Store(Absent, Absent), AshaForm, emailOk, draws, created, false).1 == ProfileForm.Saved
    ensures GetMyProfile(ProfileForm.Submit(Store(Absent, Absent), AshaForm, emailOk, draws, created, false).0)
         == Some(ProfileForm.AssembleProfile(None, AshaForm, draws, created))
    ensures ValidProfile(ProfileForm.AssembleProfile(None, AshaForm, draws, created))
  {
    AshaFormAccepted(emailOk);
    AshaEmailWellFormed();
  }

  lemma AshaEmailWellFormed()
    ensures WellFormedEmail("asha@acme.com")
  {
    var e := "asha@acme.com";
    assert forall i :: 0 <= i < |e| ==> !IsSpace(e[i]);
    assert OnlyAtSignAt(e, 4);
    assert e[5..] == "acme.com";
    assert "acme.com"[4] == '.';
    assert HasInnerDot(e[5..]);
  }

  /**
   * Scanning a shared valid profile on a second device and saving it leaves
   * that device with exactly the profile stamped with the scan time.
   */
  lemma ScanAndSaveOnSecondDevice(mine: Profile, scanned: string)
    requires ValidProfile(mine)
    ensures Scan(Encode(mine), scanned) == Success(mine.(scannedAt := Some(scanned)))
    ensures SaveContact(Store(Absent, Absent), mine.(scannedAt := Some(scanned)), false).Success?
    ensures GetContacts(SaveContact(Store(Absent, Absent), mine.(scannedAt := Some(scanned)), false).value)
         == [mine.(scannedAt := Some(scanned))]
  {
    ShareThenScan(mine, scanned);
  }
}

=== FILE: seqs.dfy ===
/** Generic sequence helpers: `Array.prototype.filter` and the set of mapped values. */
module Seqs {

  /** `a` is `b` with some elements left out: the order of what remains is kept. */
  ghost predicate SubsequenceOf<T>(a: seq<T>, b: seq<T>)
    decreases |b|
  {
    if |a| == 0 then true
    else if |b| == 0 then false
    else (a[0] == b[0] && SubsequenceOf(a[1..], b[1..])) || SubsequenceOf(a, b[1..])
  }

  lemma {:induction false} SubsequenceReflexive<T>(a: seq<T>)
    ensures SubsequenceOf(a, a)
    decreases |a|
  {
    if |a| > 0 { SubsequenceReflexive(a[1..]); }
  }

  /** `xs.filter(p)`: the elements satisfying `p`, in their original order. */
  function Filter<T(!new)>(xs: seq<T>, p: T -> bool): (r: seq<T>)
    ensures |r| <= |xs|
    ensures forall x :: x in r <==> x in xs && p(x)
    ensures (forall i :: 0 <= i < |xs| ==> p(xs[i])) ==> r == xs
    ensures SubsequenceOf(r, xs)
    decreases |xs|
  {
    if |xs| == 0 then []
    else if p(xs[0]) then [xs[0]] + Filter(xs[1..], p)
    else Filter(xs[1..], p)
  }

  /** Filtering distributes over concatenation, so relative order is kept. */
  lemma {:induction false} FilterAppend<T(!new)>(a: seq<T>, b: seq<T>, p: T -> bool)
    ensures Filter(a + b, p) == Filter(a, p) + Filter(b, p)
    decreases |a|
  {
    if |a| > 0 {
      assert (a + b)[0] == a[0];
      assert (a + b)[1..] == a[1..] + b;
      FilterAppend(a[1..], b, p);
    } else {
      assert a + b == b;
    }
  }

  /** A filter keeps every copy of an element satisfying `p` and no copy of any other. */
  lemma {:induction false} FilterMultiplicity<T(!new)>(xs: seq<T>, p: T -> bool, x: T)
    ensures multiset(Filter(xs, p))[x] == if p(x) then multiset(xs)[x] else 0
    decreases |xs|
  {
    if |xs| > 0 {
      FilterMultiplicity(xs[1..], p, x);
      assert xs == [xs[0]] + xs[1..];
    }
  }

  /** Filtering twice with the same predicate is filtering once. */
  lemma {:induction false} FilterIdempotent<T(!new)>(xs: seq<T>, p: T -> bool)
    ensures Filter(Filter(xs, p), p) == Filter(xs, p)
    decreases |xs|
  {
    if |xs| > 0 { FilterIdempotent(xs[1..], p); }
  }

  /** The number of elements of `xs` satisfying `p`. */
  function Count<T>(xs: seq<T>, p: T -> bool): (n: nat)
    ensures n <= |xs|
    decreases |xs|
  {
    if |xs| == 0 then 0 else (if p(xs[0]) then 1 else 0) + Count(xs[1..], p)
  }

  lemma {:induction false} CountAppend<T>(xs: seq<T>, x: T, p: T -> bool)
    ensures Count(xs + [x], p) == Count(xs, p) + (if p(x) then 1 else 0)
    decreases |xs|
  {
    if |xs| == 0 {
      assert xs + [x] == [x];
      assert [x][1..] == [];
    } else {
      assert (xs + [x])[1..] == xs[1..] + [x];
      CountAppend(xs[1..], x, p);
    }
  }

  /** Counting over a concatenation adds the two counts. */
  lemma {:induction false} CountConcat<T>(a: seq<T>, b: seq<T>, p: T -> bool)
    ensures Count(a + b, p) == Count(a, p) + Count(b, p)
    decreases |a|
  {
    if |a| == 0 {
      assert a + b == b;
    } else {
      assert (a + b)[1..] == a[1..] + b;
      CountConcat(a[1..], b, p);
    }
  }

  /** Filters with predicates that agree everywhere pick the same elements. */
  lemma {:induction false} FilterExtensional<T(!new)>(xs: seq<T>, p: T -> bool, q: T -> bool)
    requires forall x :: p(x) == q(x)
    ensures Filter(xs, p) == Filter(xs, q)
    decreases |xs|
  {
    if |xs| > 0 { FilterExtensional(xs[1..], p, q); }
  }

  /** A filter keeps exactly as many elements as satisfy its predicate. */
  lemma {:induction false} FilterLength<T(!new)>(xs: seq<T>, p: T -> bool)
    ensures |Filter(xs, p)| == Count(xs, p)
    decreases |xs|
  {
    if |xs| > 0 { FilterLength(xs[1..], p); }
  }

  /** `new Set(xs.map(f))`: the distinct values `f` takes on `xs`. */
  function Image<T(!new), U>(xs: seq<T>, f: T -> U): (r: set<U>)
    ensures |r| <= |xs|
    ensures |xs| > 0 ==> |r| >= 1
    ensures forall x :: x in xs ==> f(x) in r
    ensures forall y :: y in r ==> exists x :: x in xs && f(x) == y
    ensures r == set x | x in xs :: f(x)
    decreases |xs|
  {
    if |xs| == 0 then {}
    else
      var rest := Image(xs[1..], f);
      assert forall x :: x in xs[1..] ==> x in xs;
      {f(xs[0])} + rest
  }

  /** Appending `x` adds exactly `f(x)` to the image. */
  lemma ImageAppend<T(!new), U>(xs: seq<T>, x: T, f: T -> U)
    ensures Image(xs + [x], f) == Image(xs, f) + {f(x)}
  {
    var a, b := Image(xs + [x], f), Image(xs, f) + {f(x)};
    forall y | y in a ensures y in b {
      var z :| z in xs + [x] && f(z) == y;
    }
    forall y | y in b ensures y in a {
      if y != f(x) {
        var z :| z in xs && f(z) == y;
        assert z in xs + [x];
      }
    }
  }

  /** Appending `x` grows the image by one exactly when `f(x)` is new. */
  lemma ImageAppendSize<T(!new), U>(xs: seq<T>, x: T, f: T -> U)
    ensures |Image(xs + [x], f)| == |Image(xs, f)| + (if f(x) in Image(xs, f) then 0 else 1)
  {
    ImageAppend(xs, x, f);
    AddOneSize(Image(xs, f), f(x));
  }

  /** Adding `y` to a set grows it by one exactly when `y` is new. */
  lemma AddOneSize<U>(s: set<U>, y: U)
    ensures |s + {y}| == |s| + (if y in s then 0 else 1)
  {
    if y in s {
      assert s + {y} == s;
    }
  }
}

=== FILE: store.dfy ===
/**
 * The profile store of `networking.ts`: the "my profile" slot and the contact
 * list, each a local-storage key holding JSON. The slots are modelled by what
 * they decode to; a write fault (quota exceeded, serialisation error) is the
 * `writeFails` argument of each writing operation.
 */
module ContactStore {
  import opened Wrappers
  import opened Text
  import opened Seqs
  import opened Profiles

  /** A storage key: never written, holding text that does not parse, or holding a value. */
  datatype Slot<T> = Absent | Unreadable | Holds(value: T)

  /** The two keys `ntc-my-profile` and `ntc-contacts`. */
  datatype Store = Store(myProfile: Slot<Profile>, contacts: Slot<seq<Profile>>)

  /** The application-level errors `saveContact` throws, and the storage fault it rethrows. */
  datatype StoreError = DuplicateContact | StorageFault

  /** `getMyProfile()`: the stored profile, or nothing when the key is missing or unreadable. */
  function GetMyProfile(s: Store): (r: Option<Profile>)
    ensures r.Some? <==> s.myProfile.Holds?
    ensures r.Some? ==> r.value == s.myProfile.value
  {
    if s.myProfile.Holds? then Some(s.myProfile.value) else None
  }

  /** `saveMyProfile(p)`: overwrite the slot; `false` and no change when the write fails. */
  function SaveMyProfile(s: Store, p: Profile, writeFails: bool): (r: (Store, bool))
    ensures r.1 == !writeFails
    ensures r.1 ==> GetMyProfile(r.0) == Some(p)
    ensures !r.1 ==> r.0 == s
    ensures r.0.contacts == s.contacts
  {
    if writeFails then (s, false) else (s.(myProfile := Holds(p)), true)
  }

  /** `deleteMyProfile()`: clear the slot; `false` and no change when the write fails. */
  function DeleteMyProfile(s: Store, writeFails: bool): (r: (Store, bool))
    ensures r.1 == !writeFails
    ensures r.1 ==> GetMyProfile(r.0) == None
    ensures !r.1 ==> r.0 == s
    ensures r.0.contacts == s.contacts
  {
    if writeFails then (s, false) else (s.(myProfile := Absent), true)
  }

  /** `getContacts()`: the stored list, or the empty list when the key is missing or unreadable. */
  function GetContacts(s: Store): (cs: seq<Profile>)
    ensures s.contacts.Holds? ==> cs == s.contacts.value
    ensures !s.contacts.Holds? ==> cs == []
  {
    if s.contacts.Holds? then s.contacts.value else []
  }

  /** The key `saveContact` de-duplicates on: the lower-cased email. */
  function EmailKey(p: Profile): string {
    Lower(p.email)
  }

  /** Some stored contact has the same email as `c`, ignoring case. */
  predicate EmailTaken(cs: seq<Profile>, c: Profile) {
    exists i | 0 <= i < |cs| :: EmailKey(cs[i]) == EmailKey(c)
  }

  /**
   * `saveContact(c)`: throws when the email is taken (case-insensitively) and
   * rethrows a write fault; otherwise appends `c` to the list. An unreadable
   * list reads as empty, so it is replaced by `[c]`.
   */
  function SaveContact(s: Store, c: Profile, writeFails: bool): (r: Result<Store, StoreError>)
    ensures EmailTaken(GetContacts(s), c) <==> r == Failure(DuplicateContact)
    ensures r == Failure(StorageFault) <==> !EmailTaken(GetContacts(s), c) && writeFails
    ensures r.Success? ==> GetContacts(r.value) == GetContacts(s) + [c]
    ensures r.Success? ==> r.value.myProfile == s.myProfile
  {
    var cs := GetContacts(s);
    if EmailTaken(cs, c) then Failure(DuplicateContact)
    else if writeFails then Failure(StorageFault)
    else Success(s.(contacts := Holds(cs + [c])))
  }

  /**
   * `deleteContact(id)`: keep the entries whose id differs, in order, and write
   * the list back; `true` unless the write fails.
   */
  function DeleteContact(s: Store, id: string, writeFails: bool): (r: (Store, bool))
    ensures r.1 == !writeFails
    ensures !r.1 ==> r.0 == s
    ensures r.1 ==> forall c :: c in GetContacts(r.0) <==> c in GetContacts(s) && c.id != id
    ensures r.1 ==> GetContacts(r.0) == Filter(GetContacts(s), (c: Profile) => c.id != id)
    ensures r.0.myProfile == s.myProfile
  {
    if writeFails then (s, false)
    else (s.(contacts := Holds(Filter(GetContacts(s), (c: Profile) => c.id != id))), true)
  }

  /** `contacts.findIndex(c => c.id === id)`, with `-1` as `None`. */
  function FindIndex(cs: seq<Profile>, id: string): (r: Option<nat>)
    ensures r.Some? ==> r.value < |cs| && cs[r.value].id == id
    ensures r.Some? ==> forall j :: 0 <= j < r.value ==> cs[j].id != id
    ensures r.None? ==> forall j :: 0 <= j < |cs| ==> cs[j].id != id
    decreases |cs|
  {
    if |cs| == 0 then None
    else if cs[0].id == id then Some(0)
    else
      match FindIndex(cs[1..], id)
      case None => None
      case Some(k) => Some(k + 1)
  }

  /**
   * `updateContact(id, patch)`: merge the patch into the FIRST entry with that
   * id and write the list back. An unknown id throws "Contact not found",
   * which the function itself catches, so the caller sees `false`.
   */
  function UpdateContact(s: Store, id: string, patch: Patch, writeFails: bool): (r: (Store, bool))
    ensures !r.1 ==> r.0 == s
    ensures r.1 <==> (exists i | 0 <= i < |GetContacts(s)| :: GetContacts(s)[i].id == id) && !writeFails
    ensures r.1 ==> |GetContacts(r.0)| == |GetContacts(s)|
    ensures r.1 ==> exists i | 0 <= i < |GetContacts(s)| ::
      && GetContacts(s)[i].id == id
      && (forall j :: 0 <= j < i ==> GetContacts(s)[j].id != id)
      && GetContacts(r.0) == GetContacts(s)[i := Merge(GetContacts(s)[i], patch)]
    ensures r.0.myProfile == s.myProfile
  {
    var cs := GetContacts(s);
    match FindIndex(cs, id)
    case None => (s, false)
    case Some(i) =>
      if writeFails then (s, false)
      else (s.(contacts := Holds(cs[i := Merge(cs[i], patch)])), true)
  }

  /** No two stored contacts share an email, ignoring case: the rule `saveContact` enforces. */
  ghost predicate EmailsUnique(cs: seq<Profile>) {
    forall i, j :: 0 <= i < j < |cs| ==> EmailKey(cs[i]) != EmailKey(cs[j])
  }

  /** After a successful save the new contact is stored exactly once. */
  lemma SaveThenGetOnce(s: Store, c: Profile, writeFails: bool)
    requires SaveContact(s, c, writeFails).Success?
    ensures multiset(GetContacts(SaveContact(s, c, writeFails).value))[c] == 1
  {
  }

  /** Saving keeps the emails unique. */
  lemma SaveKeepsEmailsUnique(s: Store, c: Profile, writeFails: bool)
    requires EmailsUnique(GetContacts(s))
    requires SaveContact(s, c, writeFails).Success?
    ensures EmailsUnique(GetContacts(SaveContact(s, c, writeFails).value))
  {
    var cs := GetContacts(s);
    var cs' := cs + [c];
    forall i, j | 0 <= i < j < |cs'| ensures EmailKey(cs'[i]) != EmailKey(cs'[j]) {
      if j == |cs| {
        assert cs'[i] == cs[i];
      }
    }
  }

  /** Filtering keeps the emails unique. */
  lemma {:induction false} FilterKeepsEmailsUnique(cs: seq<Profile>, p: Profile -> bool)
    requires EmailsUnique(cs)
    ensures EmailsUnique(Filter(cs, p))
    decreases |cs|
  {
    if |cs| > 0 {
      assert EmailsUnique(cs[1..]) by {
        forall i, j | 0 <= i < j < |cs[1..]| ensures EmailKey(cs[1..][i]) != EmailKey(cs[1..][j]) {
          assert cs[1..][i] == cs[i + 1] && cs[1..][j] == cs[j + 1];
        }
      }
      FilterKeepsEmailsUnique(cs[1..], p);
      if p(cs[0]) {
        var rest := Filter(cs[1..], p);
        var r := [cs[0]] + rest;
        forall i, j | 0 <= i < j < |r| ensures EmailKey(r[i]) != EmailKey(r[j]) {
          if i == 0 {
            assert r[j] in cs[1..];
            var k :| 0 <= k < |cs[1..]| && cs[1..][k] == r[j];
            assert cs[k + 1] == r[j];
          } else {
            assert r[i] == rest[i - 1] && r[j] == rest[j - 1];
          }
        }
      }
    }
  }

  /** Deleting keeps the emails unique. */
  lemma DeleteKeepsEmailsUnique(s: Store, id: string, writeFails: bool)
    requires EmailsUnique(GetContacts(s))
    ensures EmailsUnique(GetContacts(DeleteContact(s, id, writeFails).0))
  {
    FilterKeepsEmailsUnique(GetContacts(s), (c: Profile) => c.id != id);
  }

  /** An update that does not touch the email keeps the emails unique. */
  lemma UpdateKeepsEmailsUnique(s: Store, id: string, patch: Patch, writeFails: bool)
    requires EmailsUnique(GetContacts(s))
    requires patch.email.None?
    ensures EmailsUnique(GetContacts(UpdateContact(s, id, patch, writeFails).0))
  {
    var cs := GetContacts(s);
    var cs' := GetContacts(UpdateContact(s, id, patch, writeFails).0);
    assert |cs'| == |cs|;
    assert forall k :: 0 <= k < |cs| ==> EmailKey(cs'[k]) == EmailKey(cs[k]);
  }

  /**
   * `updateContact` does not re-check the email rule: a patch can give one
   * contact another contact's email.
   */
  lemma UpdateCanDuplicateEmail()
    ensures exists s: Store, id: string, patch: Patch ::
      && EmailsUnique(GetContacts(s))
      && UpdateContact(s, id, patch, false).1
      && !EmailsUnique(GetContacts(UpdateContact(s, id, patch, false).0))
  {
    var a := Profile("1", "Ann", "PM", "Acme", "5550000000", "a@x.io", "t", None);
    var b := Profile("2", "Bob", "CTO", "Beta", "5550000001", "b@x.io", "t", None);
    var s := Store(Absent, Holds([a, b]));
    var patch := EmptyPatch.(email := Some("B@x.io"));
    assert EmailKey(a)[0] == 'a' && EmailKey(b)[0] == 'b';
    assert EmailsUnique(GetContacts(s));
    assert FindIndex([a, b], "1") == Some(0);
    var cs' := GetContacts(UpdateContact(s, "1", patch, false).0);
    assert cs' == [Merge(a, patch), b];
    assert Lower("B@x.io") == Lower("b@x.io");
    assert EmailKey(cs'[0]) == EmailKey(cs'[1]);
    assert UpdateContact(s, "1", patch, false).1;
  }

  /** Deleting an id no contact has leaves the list as it was, and reports success. */
  lemma DeleteAbsentId(s: Store, id: string)
    requires forall i :: 0 <= i < |GetContacts(s)| ==> GetContacts(s)[i].id != id
    ensures DeleteContact(s, id, false).1
    ensures GetContacts(DeleteContact(s, id, false).0) == GetContacts(s)
  {
  }

  /** Deleting the same id twice is the same as deleting it once. */
  lemma DeleteIdempotent(s: Store, id: string)
    ensures GetContacts(DeleteContact(DeleteContact(s, id, false).0, id, false).0)
         == GetContacts(DeleteContact(s, id, false).0)
  {
    FilterIdempotent(GetContacts(s), (c: Profile) => c.id != id);
  }

  /**
   * Ids are not de-duplicated, so the two id-keyed operations differ: with two
   * entries sharing an id, delete removes both while update changes only the
   * first entry with that id and leaves the later one as it was.
   */
  lemma DeleteAllUpdateFirst(s: Store, id: string, patch: Patch, i: nat, j: nat)
    requires i < j < |GetContacts(s)|
    requires GetContacts(s)[i].id == id && GetContacts(s)[j].id == id
    requires forall k :: 0 <= k < i ==> GetContacts(s)[k].id != id
    ensures GetContacts(s)[i] !in GetContacts(DeleteContact(s, id, false).0)
    ensures GetContacts(s)[j] !in GetContacts(DeleteContact(s, id, false).0)
    ensures GetContacts(UpdateContact(s, id, patch, false).0)[j] == GetContacts(s)[j]
    ensures GetContacts(UpdateContact(s, id, patch, false).0)[i] == Merge(GetContacts(s)[i], patch)
  {
    assert FindIndex(GetContacts(s), id) == Some(i);
  }
}

=== FILE: text.dfy ===
/**
 * String primitives the networking helpers rely on: the JavaScript whitespace
 * class (`\s`, `String.prototype.trim`), lower-casing, substring search, a
 * lexicographic order standing in for `localeCompare`, UTF-16 length (what
 * JavaScript's `length` counts) and splitting on line feeds.
 */
module Text {

  /** The characters JavaScript treats as white space in `\s` and `trim()`. */
  predicate IsSpace(c: char) {
    || c == ' ' || c == '\t' || c == '\n' || c == '\r'
    || c == '\U{000B}' || c == '\U{000C}'
    || c == '\U{00A0}' || c == '\U{1680}'
    || ('\U{2000}' <= c <= '\U{200A}')
    || c == '\U{2028}' || c == '\U{2029}' || c == '\U{202F}'
    || c == '\U{205F}' || c == '\U{3000}' || c == '\U{FEFF}'
  }

  predicate IsDigit(c: char) {
    '0' <= c <= '9'
  }

  /** Lower-case one character; only the ASCII letters are folded. */
  function LowerChar(c: char): (d: char)
    ensures 'A' <= c <= 'Z' ==> d as int == c as int + 32
    ensures !('A' <= c <= 'Z') ==> d == c
  {
    if 'A' <= c <= 'Z' then (c as int + 32) as char else c
  }

  /** `s.toLowerCase()`, restricted to ASCII case folding. */
  function Lower(s: string): (r: string)
    ensures |r| == |s|
    ensures forall i :: 0 <= i < |s| ==> r[i] == LowerChar(s[i])
  {
    seq(|s|, i requires 0 <= i < |s| => LowerChar(s[i]))
  }

  /** Lower-casing twice is lower-casing once. */
  lemma LowerIdempotent(s: string)
    ensures Lower(Lower(s)) == Lower(s)
  {
  }

  /** A string with nothing but white space (the empty string included). */
  predicate IsBlank(s: string) {
    forall i :: 0 <= i < |s| ==> IsSpace(s[i])
  }

  /** `s.trimStart()`: drop leading white space. */
  function TrimStart(s: string): (r: string)
    decreases |s|
  {
    if |s| > 0 && IsSpace(s[0]) then TrimStart(s[1..]) else s
  }

  /** `s.trimEnd()`: drop trailing white space. */
  function TrimEnd(s: string): (r: string)
    decreases |s|
  {
    if |s| > 0 && IsSpace(s[|s| - 1]) then TrimEnd(s[..|s| - 1]) else s
  }

  /** `s.trim()`. */
  function Trim(s: string): string {
    TrimEnd(TrimStart(s))
  }

  lemma {:induction false} TrimStartBlank(s: string)
    ensures TrimStart(s) == [] <==> IsBlank(s)
    ensures TrimStart(s) != [] ==> !IsSpace(TrimStart(s)[0])
    decreases |s|
  {
    if |s| > 0 && IsSpace(s[0]) {
      TrimStartBlank(s[1..]);
      if IsBlank(s[1..]) {
        forall i | 0 <= i < |s| ensures IsSpace(s[i]) {
          if i > 0 { assert s[i] == s[1..][i - 1]; }
        }
      }
      if IsBlank(s) {
        forall i | 0 <= i < |s[1..]| ensures IsSpace(s[1..][i]) {
          assert s[1..][i] == s[i + 1];
        }
      }
    }
  }

  lemma {:induction false} TrimEndEmpty(s: string)
    requires s == [] || !IsSpace(s[0])
    ensures TrimEnd(s) == [] <==> s == []
    decreases |s|
  {
    if |s| > 0 && IsSpace(s[|s| - 1]) {
      assert |s| > 1;
      TrimEndEmpty(s[..|s| - 1]);
    }
  }

  /** `s.trim()` is empty exactly when `s` is blank, which is the test `searchContacts` makes. */
  lemma TrimEmptyIffBlank(s: string)
    ensures Trim(s) == [] <==> IsBlank(s)
  {
    TrimStartBlank(s);
    TrimEndEmpty(TrimStart(s));
  }

  /** `needle` occurs in `hay` starting at offset `i`. */
  predicate OccursAt(hay: string, needle: string, i: int) {
    0 <= i && i + |needle| <= |hay| && hay[i..i + |needle|] == needle
  }

  /** `hay.includes(needle)`: `needle` occurs in `hay` at some offset. */
  predicate Contains(hay: string, needle: string) {
    exists i | 0 <= i <= |hay| - |needle| :: OccursAt(hay, needle, i)
  }

  /** `s.startsWith(prefix)`: `s` is `prefix` followed by the rest. */
  predicate HasPrefix(s: string, prefix: string) {
    |prefix| <= |s| && s[..|prefix|] == prefix
  }

  /** `s.endsWith(suffix)`. */
  predicate EndsWith(s: string, suffix: string) {
    |suffix| <= |s| && s[|s| - |suffix|..] == suffix
  }

  /**
   * `a <= b` in lexicographic code-point order. This is the order the model
   * uses in place of `a.localeCompare(b) <= 0`.
   */
  predicate LexLe(a: string, b: string)
    decreases |a|
  {
    if |a| == 0 then true
    else if |b| == 0 then false
    else if a[0] < b[0] then true
    else if b[0] < a[0] then false
    else LexLe(a[1..], b[1..])
  }

  lemma {:induction false} LexLeTotal(a: string, b: string)
    ensures LexLe(a, b) || LexLe(b, a)
    decreases |a|
  {
    if |a| > 0 && |b| > 0 && a[0] == b[0] { LexLeTotal(a[1..], b[1..]); }
  }

  lemma {:induction false} LexLeTransitive(a: string, b: string, c: string)
    requires LexLe(a, b) && LexLe(b, c)
    ensures LexLe(a, c)
    decreases |a|
  {
    if |a| > 0 && |b| > 0 && |c| > 0 && a[0] == b[0] && b[0] == c[0] {
      LexLeTransitive(a[1..], b[1..], c[1..]);
    }
  }

  /** Two strings ordered both ways are equal: the order is antisymmetric. */
  lemma {:induction false} LexLeAntisymmetric(a: string, b: string)
    requires LexLe(a, b) && LexLe(b, a)
    ensures a == b
    decreases |a|
  {
    if |a| > 0 {
      LexLeAntisymmetric(a[1..], b[1..]);
      assert a == [a[0]] + a[1..] && b == [b[0]] + b[1..];
    }
  }

  /** The number of UTF-16 code units in `s`, which is what JavaScript's `length` reports. */
  function Utf16Length(s: string): (n: nat)
    ensures |s| <= n <= 2 * |s|
    ensures (forall i :: 0 <= i < |s| ==> s[i] as int < 0x1_0000) ==> n == |s|
  {
    if |s| == 0 then 0
    else (if s[0] as int < 0x1_0000 then 1 else 2) + Utf16Length(s[1..])
  }

  /** `s.split('\n')`: the pieces between line feeds, at least one. */
  function SplitLines(s: string): (lines: seq<string>)
    ensures |lines| >= 1
    ensures forall k :: 0 <= k < |lines| ==> '\n' !in lines[k]
    decreases |s|
  {
    if |s| == 0 then [""]
    else
      var rest := SplitLines(s[1..]);
      if s[0] == '\n' then [""] + rest
      else [[s[0]] + rest[0]] + rest[1..]
  }

  /** The total number of characters in `lines`. */
  function TotalLength(lines: seq<string>): nat
  {
    if |lines| == 0 then 0 else |lines[0]| + TotalLength(lines[1..])
  }

  /** `lines.join('\n')`. */
  function JoinLines(lines: seq<string>): string
    requires |lines| >= 1
  {
    if |lines| == 1 then lines[0] else lines[0] + "\n" + JoinLines(lines[1..])
  }

  lemma TotalLengthStep(lines: seq<string>, i: nat)
    requires i < |lines|
    ensures TotalLength(lines[i..]) == |lines[i]| + TotalLength(lines[i + 1..])
  {
    assert lines[i..][1..] == lines[i + 1..];
  }

  /**
   * The joined text starts with the first line, ends with the last, and is as
   * long as the lines together plus one line feed between each neighbouring pair.
   */
  lemma {:induction false} JoinLinesShape(lines: seq<string>)
    requires |lines| >= 1
    ensures |JoinLines(lines)| == TotalLength(lines) + |lines| - 1
    ensures |lines[|lines| - 1]| <= |JoinLines(lines)|
    ensures JoinLines(lines)[..|lines[0]|] == lines[0]
    ensures JoinLines(lines)[|JoinLines(lines)| - |lines[|lines| - 1]|..] == lines[|lines| - 1]
    decreases |lines|
  {
    if |lines| == 1 {
      assert lines[1..] == [];
    } else {
      JoinLinesShape(lines[1..]);
      var rest := JoinLines(lines[1..]);
      var r := lines[0] + "\n" + rest;
      assert r[|r| - |rest|..] == rest;
    }
  }

  /** Splitting a line-feed-free line followed by more text separates that line first. */
  lemma {:induction false} SplitLinesPrefix(line: string, tail: string)
    requires '\n' !in line
    ensures SplitLines(line + "\n" + tail) == [line] + SplitLines(tail)
    ensures SplitLines(line) == [line]
    decreases |line|
  {
    if |line| == 0 {
      assert line + "\n" + tail == ['\n'] + tail;
      assert (['\n'] + tail)[1..] == tail;
    } else {
      SplitLinesPrefix(line[1..], tail);
      assert (line + "\n" + tail)[1..] == line[1..] + "\n" + tail;
      assert line == [line[0]] + line[1..];
    }
  }

  /** Joining lines without line feeds and splitting again gives the same lines back. */
  lemma {:induction false} SplitJoin(lines: seq<string>)
    requires |lines| >= 1
    requires forall k :: 0 <= k < |lines| ==> '\n' !in lines[k]
    ensures SplitLines(JoinLines(lines)) == lines
    decreases |lines|
  {
    SplitLinesPrefix(lines[0], "");
    if |lines| > 1 {
      SplitJoin(lines[1..]);
      SplitLinesPrefix(lines[0], JoinLines(lines[1..]));
    }
  }
}

=== FILE: uuid.dfy ===
/**
 * `generateId`: the version-4 UUID template of section 4.4 of RFC 4122,
 * filled one hexadecimal digit at a time. The random draws
 * (`Math.random() * 16 | 0`) are passed in as `draws`.
 */
module Uuid {
  import opened Seqs

  /** One random draw, a value in 0..15. */
  type Nibble = n: int | 0 <= n < 16

  /** `'xxxxxxxx-xxxx-4xxx-yxxx-xxxxxxxxxxxx'`, written group by group. */
  const Template: string := "xxxxxxxx" + "-xxxx" + "-4xxx" + "-yxxx" + "-xxxx" + "xxxxxxxx"

  const HexDigits: string := "0123456789abcdef"

  /** `v.toString(16)` for a single digit. */
  function HexDigit(n: Nibble): char {
    HexDigits[n]
  }

  predicate IsLowerHex(c: char) {
    ('0' <= c <= '9') || ('a' <= c <= 'f')
  }

  /** The value of a lower-case hexadecimal digit. */
  function HexValue(c: char): (n: Nibble)
    requires IsLowerHex(c)
    ensures HexDigit(n) == c
  {
    if c <= '9' then c as int - '0' as int else c as int - 'a' as int + 10
  }

  /** `r & 0x3 | 0x8`: the variant digit, always one of 8, 9, a, b. */
  function VariantNibble(r: Nibble): Nibble {
    ((r as bv8 & 0x3) | 0x8) as int
  }

  /** A template character the replacement fills with a random digit. */
  predicate IsSlot(c: char) {
    c == 'x' || c == 'y'
  }

  /** How many random draws filling `t` consumes: one per slot. */
  function SlotCount(t: string): nat {
    Count(t, IsSlot)
  }

  /** `s` is a filling of `t`: a hex digit at every `x`, a variant digit at every `y`, the rest copied. */
  predicate Fills(t: string, s: string) {
    && |s| == |t|
    && forall i :: 0 <= i < |t| ==>
         && (t[i] == 'x' ==> IsLowerHex(s[i]))
         && (t[i] == 'y' ==> s[i] in "89ab")
         && (!IsSlot(t[i]) ==> s[i] == t[i])
  }

  /** `t.replace(/[xy]/g, …)`: replace each slot, left to right, using the next draw. */
  function FillTemplate(t: string, draws: seq<Nibble>): (s: string)
    requires |draws| == SlotCount(t)
    ensures Fills(t, s)
    decreases |t|
  {
    if |t| == 0 then ""
    else if t[0] == 'x' then [HexDigit(draws[0])] + FillTemplate(t[1..], draws[1..])
    else if t[0] == 'y' then [HexDigit(VariantNibble(draws[0]))] + FillTemplate(t[1..], draws[1..])
    else [t[0]] + FillTemplate(t[1..], draws)
  }

  /** The template has 31 slots: 32 hex digits less the fixed version digit. */
  lemma TemplateSlots()
    ensures SlotCount(Template) == 31
  {
    assert Count("xxxx", IsSlot) == 4;
    CountConcat("xxxx", "xxxx", IsSlot);
    assert "xxxx" + "xxxx" == "xxxxxxxx";
    assert Count("-xxxx", IsSlot) == 4;
    assert Count("-4xxx", IsSlot) == 3;
    assert Count("-yxxx", IsSlot) == 4;
    CountConcat("xxxxxxxx", "-xxxx", IsSlot);
    CountConcat("xxxxxxxx" + "-xxxx", "-4xxx", IsSlot);
    CountConcat("xxxxxxxx" + "-xxxx" + "-4xxx", "-yxxx", IsSlot);
    CountConcat("xxxxxxxx" + "-xxxx" + "-4xxx" + "-yxxx", "-xxxx", IsSlot);
    CountConcat("xxxxxxxx" + "-xxxx" + "-4xxx" + "-yxxx" + "-xxxx", "xxxxxxxx", IsSlot);
  }

  /** `generateId()` with its 31 random draws supplied. */
  function GenerateId(draws: seq<Nibble>): (id: string)
    requires |draws| == 31
    ensures |id| == 36
    ensures id[8] == '-' && id[13] == '-' && id[18] == '-' && id[23] == '-'
    ensures id[14] == '4'
    ensures id[19] in "89ab"
    ensures Fills(Template, id)
  {
    TemplateSlots();
    FillTemplate(Template, draws)
  }

  /** The draws that fill `t` to give `s`: read each slot's digit back. */
  function Draws(t: string, s: string): (draws: seq<Nibble>)
    requires Fills(t, s)
    ensures |draws| == SlotCount(t)
    decreases |t|
  {
    if |t| == 0 then []
    else
      assert Fills(t[1..], s[1..]) by {
        forall i | 0 <= i < |t[1..]| ensures t[1..][i] == t[i + 1] && s[1..][i] == s[i + 1] { }
      }
      if t[0] == 'x' then [HexValue(s[0])] + Draws(t[1..], s[1..])
      else if t[0] == 'y' then [HexValue(s[0]) - 8] + Draws(t[1..], s[1..])
      else Draws(t[1..], s[1..])
  }

  /** A filling of `t` minus its first character fills the rest of `t`. */
  lemma FillsTail(t: string, s: string)
    requires Fills(t, s) && |t| > 0
    ensures Fills(t[1..], s[1..])
  {
    forall i | 0 <= i < |t[1..]| ensures t[1..][i] == t[i + 1] && s[1..][i] == s[i + 1] { }
  }

  /** The variant digit of draw `n - 8` is `n` itself for every `n` in 8..11. */
  lemma VariantOfVariant(n: Nibble)
    requires 8 <= n < 12
    ensures VariantNibble(n - 8) == n
  {
    var b := (n - 8) as bv8;
    assert b & 0x3 == b;
  }

  /** Every filling of a template is produced by some sequence of draws. */
  lemma {:induction false} FillTemplateOnto(t: string, s: string)
    requires Fills(t, s)
    ensures FillTemplate(t, Draws(t, s)) == s
    decreases |t|
  {
    if |t| > 0 {
      FillsTail(t, s);
      FillTemplateOnto(t[1..], s[1..]);
      assert s == [s[0]] + s[1..];
      if t[0] == 'y' {
        VariantOfVariant(HexValue(s[0]));
      }
    }
  }

  /** Every string of the version-4 shape is an id `generateId` can return. */
  lemma EveryV4IdIsGenerated(id: string)
    requires Fills(Template, id)
    ensures exists draws: seq<Nibble> :: |draws| == 31 && GenerateId(draws) == id
  {
    TemplateSlots();
    FillTemplateOnto(Template, id);
    var draws := Draws(Template, id);
    assert GenerateId(draws) == id;
  }
}

=== FILE: vcard.dfy ===
/**
 * `exportContactAsVCard`: a fixed vCard 3.0 template (RFC 2426: FN in section
 * 3.1.1, TEL 3.3.1, EMAIL 3.3.2, ORG 3.5.5, TITLE 3.5.1). Values are inserted
 * verbatim, without the escaping the RFC asks for, and lines end in a bare
 * line feed rather than CRLF.
 */
module VCard {
  import opened Text
  import opened Wrappers
  import opened Profiles

  /** The template's eight lines for `c`, in order. */
  function CardLines(c: Profile): seq<string> {
    ["BEGIN:VCARD", "VERSION:3.0", "FN:" + c.name, "TEL:" + c.phone, "EMAIL:" + c.email,
     "ORG:" + c.company, "TITLE:" + c.role, "END:VCARD"]
  }

  /**
   * The card text for `c`: the template lines joined by line feeds. It opens
   * with BEGIN:VCARD, closes with END:VCARD, and is 61 characters of template
   * plus the five values.
   */
  function ExportVCard(c: Profile): (r: string)
    ensures HasPrefix(r, "BEGIN:VCARD")
    ensures |r| >= 9 && r[|r| - 9..] == "END:VCARD"
    ensures |r| == 61 + |c.name| + |c.phone| + |c.email| + |c.company| + |c.role|
  {
    var lines := CardLines(c);
    EightLinesLength(lines);
    JoinLinesShape(lines);
    JoinLines(lines)
  }

  /** The total length of eight lines, written out. */
  lemma EightLinesLength(lines: seq<string>)
    requires |lines| == 8
    ensures TotalLength(lines) == |lines[0]| + |lines[1]| + |lines[2]| + |lines[3]|
      + |lines[4]| + |lines[5]| + |lines[6]| + |lines[7]|
  {
    assert lines[8..] == [];
    TotalLengthStep(lines, 7);
    TotalLengthStep(lines, 6);
    TotalLengthStep(lines, 5);
    TotalLengthStep(lines, 4);
    TotalLengthStep(lines, 3);
    TotalLengthStep(lines, 2);
    TotalLengthStep(lines, 1);
    TotalLengthStep(lines, 0);
  }

  /** The five values a card carries. */
  datatype Card = Card(fullName: string, tel: string, email: string, org: string, title: string)

  /** Read a card written by the template back: eight lines, fixed labels, the values after them. */
  function ParseVCard(text: string): (r: Option<Card>)
    ensures r.Some? ==> |SplitLines(text)| == 8
  {
    var lines := SplitLines(text);
    if && |lines| == 8
       && lines[0] == "BEGIN:VCARD" && lines[1] == "VERSION:3.0"
       && HasPrefix(lines[2], "FN:") && HasPrefix(lines[3], "TEL:")
       && HasPrefix(lines[4], "EMAIL:") && HasPrefix(lines[5], "ORG:")
       && HasPrefix(lines[6], "TITLE:") && lines[7] == "END:VCARD"
    then Some(Card(lines[2][3..], lines[3][4..], lines[4][6..], lines[5][4..], lines[6][6..]))
    else None
  }

  /** None of the five exported values contains a line feed. */
  predicate SingleLineFields(c: Profile) {
    && '\n' !in c.name && '\n' !in c.phone && '\n' !in c.email
    && '\n' !in c.company && '\n' !in c.role
  }

  /**
   * When no value contains a line feed, the card is exactly eight lines: the
   * BEGIN/VERSION header, FN, TEL, EMAIL, ORG, TITLE with the values verbatim,
   * and END.
   */
  lemma ExportVCardLines(c: Profile)
    requires SingleLineFields(c)
    ensures SplitLines(ExportVCard(c)) == CardLines(c)
  {
    var lines := CardLines(c);
    assert forall k :: 0 <= k < |lines| ==> '\n' !in lines[k] by {
      assert '\n' !in "FN:" && '\n' !in "TEL:" && '\n' !in "EMAIL:" && '\n' !in "ORG:" && '\n' !in "TITLE:";
    }
    SplitJoin(lines);
  }

  /** A card exported from single-line values reads back to those values. */
  lemma ExportThenParse(c: Profile)
    requires SingleLineFields(c)
    ensures ParseVCard(ExportVCard(c)) == Some(Card(c.name, c.phone, c.email, c.company, c.role))
  {
    ExportVCardLines(c);
    var lines := CardLines(c);
    assert lines[2][..3] == "FN:" && lines[2][3..] == c.name;
    assert lines[3][..4] == "TEL:" && lines[3][4..] == c.phone;
    assert lines[4][..6] == "EMAIL:" && lines[4][6..] == c.email;
    assert lines[5][..4] == "ORG:" && lines[5][4..] == c.company;
    assert lines[6][..6] == "TITLE:" && lines[6][6..] == c.role;
  }
}

=== FILE: wrappers.dfy ===
/** Option and Result, the two failure-carrying shapes the store and the codec return. */
module Wrappers {

  /** A value that may be missing: a JavaScript `null`/`undefined` or an absent key. */
  datatype Option<+T> = None | Some(value: T) {
    function GetOr(default: T): T {
      match this
      case Some(v) => v
      case None => default
    }
  }

  /** Either a value, or the error a thrown `Error` would have carried. */
  datatype Result<+R, +E> = Success(value: R) | Failure(error: E)
}
